=== FILE: README.md ===
# Coordinate learning and screen-dimension checks, in Dafny

This project models three small pieces of pure logic from an Android GUI
automation repository. Each piece is taken out of its printing, its
subprocess calls and its asyncio wrapping, and is stated as functions over
integers and strings.

- **The real-learning demo's iteration rule** (`RealLearning`). A test
  click is compared with the target. It is a hit when both axis errors are
  at most 10 px. On a miss, the negated offset, clamped to ±20 px per axis,
  goes to the executor's adjustment store. When either error is strictly
  above 30 px, the `click_action` strategy is also escalated to
  `{timeout 10.0, retry_delay 1.5, verification_required}`. The five-step
  demo run is a fold that yields the iteration records and the log of
  executor calls.
- **The complete-system demo's simulated reflector** (`CompleteSystem`).
  The dispatched click is judged with an inclusive 15 px tolerance, giving
  outcome "A" with confidence 0.95 or "C" with 0.90. A miss produces
  directional suggestions, x before y, and the exact correction `-offset`.
  That correction is stored under the coordinates *originally requested*,
  and a learning event is logged. The mock "after" screenshot labels the
  miss ("偏右" and so on) from the scenario's raw click. For the same
  offset, each label opposes the reflector's suggestion. The two are
  judged on different clicks, though: the screenshot uses the requested
  click and the reflector the calibrated one.
  The scenario loop is a fold that appends one operation record per
  scenario.
- **The screen-dimension experiment** (`ScreenDimensions`):
  - the `adb devices` line filter and the device id;
  - the `wm size` parser, where "Physical size:" is consulted before
    "Override size:";
  - the case-insensitive `dumpsys display` classifier, in which the last
    matching line wins;
  - the rules in `main` that compare the adb resolution with the screenshot
    size: absolute differences, the identical verdict, the hint thresholds
    and the orientation-swap test.

Supporting modules:

- `Geometry` holds integer points and the clamp.
- `ExecutorCalls` holds the log of calls into the executor.
- `Text` holds the Python string built-ins the parsers use: `strip` over
  the whole `isspace` set, `in`, `split(sep)` with its `join` round trip,
  `split()[0]`, `lower`, `int(...)` and `str(n)`.
- `Wrappers` holds `Option`.

Fractional constants are kept as scaled integers:

- timeouts in tenths of a second (10.0 is 100, 1.5 is 15);
- confidences in hundredths (0.95 is 95, 0.90 is 90).

The executor's store, lookup, calibration and strategy-update methods are
not part of this model. A call to store or update is recorded as a `Call`
value in a log. The learned adjustment and the calibrated click that the
executor returns are inputs.

One behaviour of the `wm size` parser as written is proved outright rather
than corrected. When adb prints both "Physical size: WxH" and
"Override size: WxH", the text after the first marker splits on 'x' into
three pieces. The unpacking then raises, and the handler turns that into no
size at all (`PhysicalThenOverrideGivesNothing`).

## Model

| member | source | states |
|---|---|---|
| Geometry.Clamp | demo_real_learning.py:106-109 | The result lies in [-m, m]; it equals the input inside that range, m above it and -m below it. |
| RealLearning.PerformIteration | demo_real_learning.py:85-134 | The offset added to the target gives the test click. A hit holds iff both errors are at most 10, and a hit stores nothing and records [0, 0]. On a miss: each adjustment is within ±20 and opposes its offset; it is the exact negation when the error is at most 20 and has magnitude 20 otherwise; the first call stores it under the test coordinates. Exactly one store per miss. Exactly one `click_action` escalation iff some error is strictly above 30, and it carries the escalated strategy. |
| RealLearning.CorrectionNeverOvershoots | demo_real_learning.py:103-114 | After a miss, applying the stored correction leaves each axis error at max(0, error - 20), so the click never passes the target. |
| RealLearning.EscalationOnlyOnFailure | demo_real_learning.py:101-124 | An error above 30 px means the iteration is a miss and an escalated strategy update is among its calls. |
| RealLearning.RunCycle | demo_real_learning.py:75-77 | The cycle yields as many records as test coordinates. |
| RealLearning.RunCycleRecords | demo_real_learning.py:75-77 | Record k of the cycle is the record of iteration k + 1 on the k-th input: one per input, in order, numbered from 1. |
| RealLearning.RunCycleAppend | demo_real_learning.py:75-77 | One more input appends exactly its iteration's record and calls to the cycle. |
| RealLearning.LogMatchesRecords | demo_real_learning.py:101-124 | The cycle's log holds one store call per missed iteration and one strategy update per iteration whose error exceeds 30. |
| RealLearning.SimulateLearningCycle | demo_real_learning.py:56-83 | The driver loop builds the same log as the fold; record k has iteration number k + 1 and the k-th test coordinate. |
| RealLearning.DemoIterations | demo_real_learning.py:63-77 | The five demo clicks towards [500, 650]: the first two miss and are each corrected by [20, 20]; only the first escalates, since the second's y error of 30 is not above 30; the last three hit, the third exactly on the 10 px boundary. |
| RealLearning.DemoRun | demo_real_learning.py:63-124 | The demo run's call log is: store [20, 20] at [450, 600], escalate `click_action`, store [20, 20] at [480, 620]. |
| CompleteSystem.Suggestions | demo_complete_system.py:225-231 | The x entry is present iff the x error exceeds 15, and comes first: "向左" for a positive error, "向右" otherwise, with the error's magnitude. The same holds on y with "向上"/"向下". A miss yields one or two entries. |
| CompleteSystem.SuggestionsReachTarget | demo_complete_system.py:225-231 | Moving the click as a suggestion says cancels that axis' error exactly and leaves the other axis unchanged. |
| CompleteSystem.PerformIntelligentAnalysis | demo_complete_system.py:193-268 | The verdict is a hit iff both errors are at most 15. A hit gives "A", 95 and "操作精度良好，建议保持当前策略", with no suggestions, calls or event. A miss gives "C" and 90, and the one or two suggestions of `Suggestions` for the final click's offset, with the text "建议" + "，".join(phrases). It logs one learning event: its offset added to the target gives the final click, its adjustment added to the final click gives the target, and the single store call is keyed by the original coordinates. |
| CompleteSystem.LearningEventNegatesOffset | demo_complete_system.py:246-264 | A learning event's adjustment is its offset negated, on both axes. |
| CompleteSystem.AfterScreenshotFor | demo_complete_system.py:93-128 | Nothing is drawn unless the type is "button_click". A pressed button is drawn iff both raw errors are at most 15. A miss carries one horizontal label iff |dx| > 15 and one vertical label iff |dy| > 15, and no other: "偏右" iff dx > 15, "偏左" iff dx < -15, "偏下" iff dy > 15, "偏上" iff dy < -15. |
| CompleteSystem.LabelOpposesSuggestion | demo_complete_system.py:121-128 | For one and the same missed click, each screenshot label appears iff the reflector suggests the opposite move of the same size: "偏右" with "向左", "偏左" with "向右", "偏下" with "向上", "偏上" with "向下". |
| CompleteSystem.RunScenario | demo_complete_system.py:182-189 | A scenario appends one operation record. A hit adds no event and no call. A miss appends exactly one event, holding the requested coordinates, the target, the error (final minus target) and the correction (target minus final). It also appends one store of target minus final click. |
| CompleteSystem.RunScenarios | demo_complete_system.py:304-316 | The loop yields one operation record per scenario, and at most one learning event and one call per scenario. |
| CompleteSystem.ScenarioOperations | demo_complete_system.py:304-316 | After the loop, operation record k holds scenario k's coordinates and the executor's answers for it, one per scenario, in order. |
| CompleteSystem.ScenarioLearning | demo_complete_system.py:243-264 | The session holds exactly one learning event and one store call per missed scenario, and no other calls. |
| CompleteSystem.FirstScenarioUncalibrated | demo_complete_system.py:224-254 | The first scenario with no learned adjustment is outcome "C" with the text "建议向右调整50像素，向下调整20像素", and stores [50, 20] under [450, 580]. |
| Text.Strip | compare_screen_dimensions.py:35 | The stripped text is empty iff every character is whitespace; otherwise it neither starts nor ends with whitespace. |
| Text.StripKeepsInnerSlice | compare_screen_dimensions.py:35 | The stripped text is a slice of the input with only whitespace before and after it; with the contract of `Strip`, this fixes the result. |
| Text.StripUnchanged | compare_screen_dimensions.py:35 | A string that neither starts nor ends with whitespace is its own strip. |
| Text.IndexOf | compare_screen_dimensions.py:24 | The result is an occurrence of the pattern with none before it; no result means no occurrence at all. |
| Text.Split | compare_screen_dimensions.py:23 | Joining the pieces with the separator gives back the input, and no piece contains the separator. The input comes back whole iff it lacks the separator; otherwise the first piece is the text before the first occurrence. |
| Text.FirstToken | compare_screen_dimensions.py:29 | There is no token iff the line is blank. Otherwise the token is the first maximal run of non-whitespace after leading whitespace. |
| Text.Lower | compare_screen_dimensions.py:125 | The result has the same length and lower-cases each character in place. |
| Text.NatToString | demo_complete_system.py:228 | The text is non-empty ASCII digits whose decimal value is n, with no leading zero unless n is 0. |
| Text.ParseInt | compare_screen_dimensions.py:40 | A value is read iff the stripped text is a digit or a sign followed only by digits, with at least one digit. Any other character, an empty text or a lone sign gives nothing. The value is the decimal value of the digits, negated after a '-' and unchanged after a '+'. |
| Text.ParseIntOfDecimal | compare_screen_dimensions.py:40 | `int` reads back what `str` prints. |
| ScreenDimensions.KeepDeviceLines | compare_screen_dimensions.py:24 | The filter keeps at most as many lines as it is given. |
| ScreenDimensions.KeepDeviceLinesAppend | compare_screen_dimensions.py:24 | Filtering two listings one after the other gives the kept lines of the first followed by those of the second. |
| ScreenDimensions.KeptLinesAreDeviceLines | compare_screen_dimensions.py:24 | A line is kept iff it is one of the listed lines, is not blank and contains "device". |
| ScreenDimensions.ConnectedDevices | compare_screen_dimensions.py:23-24 | The first line of the stripped output is never a device: fewer devices than lines. |
| ScreenDimensions.HeaderOnlyListsNoDevice | compare_screen_dimensions.py:23-27 | An output that is only its header line lists no device, even though "List of devices attached" contains "device". |
| ScreenDimensions.OneLineAfterHeader | compare_screen_dimensions.py:23-24 | A single line after the header is listed iff it is a device line. |
| ScreenDimensions.DeviceId | compare_screen_dimensions.py:25-29 | An id exists iff some device line is connected, and it is the first whitespace token of the first such line. |
| ScreenDimensions.ParseSizePart | compare_screen_dimensions.py:39-40 | A size is read iff the stripped part splits on 'x' into exactly two pieces that both parse as integers. The size is those two integers, and the stripped part is the two pieces joined by the 'x'. |
| ScreenDimensions.TrailingUnitIsNoSize | compare_screen_dimensions.py:39-56 | "WxH dp" gives no size: the height piece is not an integer, and the handler turns the error into nothing. |
| ScreenDimensions.ParseSizeText | compare_screen_dimensions.py:39-41 | A size printed as " WxH" after the marker parses back to (W, H). |
| ScreenDimensions.ParseWmSize | compare_screen_dimensions.py:35-49 | A size is only reported when the stripped output contains one of the two markers. |
| ScreenDimensions.ParseAfterPhysical | compare_screen_dimensions.py:38-41 | For every output whose stripped text holds "Physical size:", with the first occurrence after any prefix: the size is parsed from the text after it, up to a second occurrence if any, or to the end when there is none. |
| ScreenDimensions.ParseAfterOverride | compare_screen_dimensions.py:42-46 | For every output whose stripped text lacks "Physical size:" but holds "Override size:", with the first occurrence after any prefix: the size is parsed from the text after it, up to a second occurrence if any, or to the end when there is none. |
| ScreenDimensions.PhysicalSizeWins | compare_screen_dimensions.py:38-41 | "Physical size: WxH" yields (W, H) when the text before it holds no 'P' and does not start with whitespace, for example an "Override size:" line. A prefix with leading whitespace is covered by `ParseAfterPhysical`. |
| ScreenDimensions.OverrideSizeRoundTrip | compare_screen_dimensions.py:42-46 | "Override size: WxH" alone yields (W, H). |
| ScreenDimensions.SizeThenOverrideIsNoSize | compare_screen_dimensions.py:39-40 | A size followed by an "Override size:" line holds two 'x's, so it is not a size. |
| ScreenDimensions.PhysicalThenOverrideGivesNothing | compare_screen_dimensions.py:38-56 | "Physical size: WxH" followed by an "Override size: WxH" line yields no size. |
| ScreenDimensions.AdbScreenResolution | compare_screen_dimensions.py:14-56 | A resolution needs a successful `adb devices` that lists a device and a successful `wm size`, and it is what the parser reads. With both present, the parser's answer is returned. |
| ScreenDimensions.ClassifyLine | compare_screen_dimensions.py:125-130 | The full decision table, each as an iff. A line is real-size iff it has a raw size mark and names "real" in any case. It is app-size iff it has the mark, does not name "real" and names "app". It is a dpi line iff it names "dpi" and is not a size line naming "real" or "app". It is unrecognised iff it names no "dpi" and is not such a size line. |
| ScreenDimensions.ClassPrecedence | compare_screen_dimensions.py:125-130 | The tests are tried in the order real, app, dpi. A size line naming "real" is a real-size line even if it names "app" or "dpi". A size line naming "app" but not "real" is an app-size line even if it names "dpi". A line naming "dpi" is a dpi line when it has no size mark, or when it names neither "real" nor "app", even if it carries a size mark. |
| ScreenDimensions.KeywordsIgnoreCase | compare_screen_dimensions.py:125-126 | A line holding "REAL" in capitals and an 'x' is a real-size line. |
| ScreenDimensions.SizeMarkIsCaseSensitive | compare_screen_dimensions.py:125-130 | A line with neither a lower-case 'x' nor '×' is never a real-size or app-size line, whatever keywords it holds. |
| ScreenDimensions.LastStoreWins | compare_screen_dimensions.py:124-130 | The entry of a class holds the value of its last occurrence. |
| ScreenDimensions.AbsentClassKept | compare_screen_dimensions.py:124-130 | A class that never occurs keeps its entry. |
| ScreenDimensions.ClassifyLines | compare_screen_dimensions.py:123-130 | The loop never touches the density or the model entries. |
| ScreenDimensions.LastMatchWins | compare_screen_dimensions.py:123-130 | An entry holds the stripped text of the last line of its class: later matches overwrite earlier ones. |
| ScreenDimensions.NoMatchKeepsEntry | compare_screen_dimensions.py:123-130 | An entry that no line matches stays as it was. |
| ScreenDimensions.AdbDisplayInfo | compare_screen_dimensions.py:105-141 | The density is present iff its command succeeded, and is its stripped output. The model is present iff no earlier command raised and its own succeeded. After a successful `dumpsys display`, the size and dpi entries are those of classifying its lines one by one. Without one, or after an exception, no size or dpi entry exists. |
| ScreenDimensions.Causes | compare_screen_dimensions.py:201-214 | Each possible-cause line appears iff its rule holds, at most once, in the printed order: orientation, DPI, navigation, small difference, swap. |
| ScreenDimensions.CompareDimensions | compare_screen_dimensions.py:185-224 | The diffs are absolute differences. The result is identical iff the sizes are equal, and then there are no hints. Otherwise: orientation iff widthDiff > heightDiff; DPI and navigation iff either diff > 100; small difference iff both < 50; swap iff width and height are exchanged. The hints come in the printed order, each at most once. The advice is "interchangeable" iff identical. |
| ScreenDimensions.CompareSymmetric | compare_screen_dimensions.py:186-187 | Swapping the adb and screenshot sizes changes nothing in the comparison. |
| ScreenDimensions.DpiAndSmallExclusive | compare_screen_dimensions.py:204-209 | The DPI hint and the small-difference hint never appear together. |
| ScreenDimensions.SwapExcludesOrientation | compare_screen_dimensions.py:201-214 | A detected swap has equal diffs, so it never comes with the orientation hint; a size compared with itself yields no hints. |
| ScreenDimensions.RunExperiment | compare_screen_dimensions.py:143-187 | The comparison runs iff the adb resolution, the screenshot and its size were all obtained, and it compares those two sizes. Each early stop happens iff the step before it succeeded and its own step failed: no adb resolution, then no screenshot, then no PIL size. |

## Left out

- The executor's `_store_coordinate_adjustment`, `_get_learned_coordinate_adjustment`, `_calibrate_coordinates`, `_update_execution_strategy` and `_execute_click` are not part of this model. Store and update calls appear only as entries of a call log; the learned adjustment and the calibrated click are inputs; the click result is not modelled.
- Every subprocess call (`adb devices`, `wm size`, `wm density`, `dumpsys display`, `getprop`) is an input `Command`. `take_adb_screenshot` and `get_pil_screen_dimensions` are inputs to `RunExperiment`. Their pulls, file removal and PIL image loading are I/O.
- The PIL drawing and saving in `create_realistic_screenshots` are I/O. Only the hit/miss decision and the offset labels are kept. Its text-file fallback for a missing PIL is no working path: it reads `scenario_type`, which is only bound after the PIL import (demo_complete_system.py:73-75, 144), so it raises `UnboundLocalError`.
- asyncio sleeps, the event bus, printing, logging and the timestamps in records and events are not modelled. The `comparison_analysis` text is left out: it formats Python lists (`str` of a list) inside fixed text, and nothing reads it.
- The floating-point statistics (distances, success rates, improvement percentages) of `display_learning_analytics` are left out.
- `display_final_analysis` (demo_complete_system.py:335-384) only prints the session counts, the learning events and the executor's feedback summary. It falls under printing and is not modelled.
- `demonstrate_adaptive_correction` is left out. It stores the fixed adjustment [10, -5] at every position where the learned-adjustment lookup returns [0, 0] (demo_real_learning.py:178-185), so what it does depends on that unmodelled lookup.
- demo_continuous_correction.py, demo_coordinate_precision.py, test_screen_dimensions_fallback.py and core/__init__.py are not part of this model. They hold canned mock data, behaviour of `ExecutorAgent`/`ActionReflectorAgent` methods defined in other modules, device-dependent tests and re-exports.
- Text.ParseInt: Python's `int()` also accepts underscores between digits and non-ASCII decimal digits; only an optional sign and ASCII digits, with surrounding whitespace, are modelled.
- Text.Lower: only ASCII letters are lower-cased, not the full Unicode case mapping.
- ScreenDimensions.ParseWmSize: its own contract only says that a size needs a marker. What it reads is stated by `ParseAfterPhysical`, `ParseAfterOverride`, `PhysicalSizeWins`, `OverrideSizeRoundTrip` and `PhysicalThenOverrideGivesNothing`.
- ScreenDimensions.ConnectedDevices: its own contract only bounds the number of devices. Membership is stated by `KeptLinesAreDeviceLines`, and the header rule by `HeaderOnlyListsNoDevice` and `OneLineAfterHeader`.
- ScreenDimensions.ClassifyLines: its own contract only says the density and model entries are untouched. What the size and dpi entries hold is stated by `LastMatchWins` and `NoMatchKeepsEntry`.
- ScreenDimensions.KeepDeviceLines: its own contract only bounds the number of kept lines. Which lines are kept is stated by `KeptLinesAreDeviceLines`, and the concatenation rule by `KeepDeviceLinesAppend`.
- CompleteSystem.RunScenarios: its own contract only gives counts. The records are stated by `ScenarioOperations`, and the events and calls by `ScenarioLearning`. One operation record per scenario holds only when PIL can be imported: otherwise the screenshot fallback raises `UnboundLocalError` at the first scenario, before any record is appended, and `run_demo` catches it (demo_complete_system.py:144, 308, 422). That failure is not modelled.
- RealLearning.RunCycle: its own contract only gives the record count. The contents are stated by `RunCycleRecords`, `RunCycleAppend` and `LogMatchesRecords`.

=== FILE: complete_system.dfy ===
/** The simulated reflector of the complete-system demo: the dispatched click
    is judged against the target with a 15 px tolerance, a miss produces
    directional suggestions and an exact correction stored under the
    coordinates originally requested, and the mock "after" screenshot labels
    the direction of the miss. */
module CompleteSystem {
  import opened Wrappers
  import opened Geometry
  import opened ExecutorCalls
  import Text

  /** Largest per-axis error still judged a hit, by the reflector and by the screenshot mock. */
  const Tolerance: nat := 15

  /** Confidences in hundredths: 0.95 for a hit, 0.90 for a miss. */
  const SuccessConfidence: nat := 95
  const FailureConfidence: nat := 90

  /** The reflector's outcome letter: "A" for a hit, "C" for a miss. */
  datatype Outcome = OutcomeA | OutcomeC {
    function Letter(): string {
      match this
      case OutcomeA => "A"
      case OutcomeC => "C"
    }
  }

  /** The direction a suggestion tells the executor to move the click. */
  datatype Direction = Left | Right | Up | Down {
    /** "向左", "向右", "向上", "向下". */
    function Word(): string {
      match this
      case Left => "向左"
      case Right => "向右"
      case Up => "向上"
      case Down => "向下"
    }
  }

  /** "move `pixels` px towards `direction`". */
  datatype Suggestion = Suggestion(direction: Direction, pixels: nat) {
    /** `f"{direction}调整{pixels}像素"`. */
    function Phrase(): string {
      direction.Word() + "调整" + Text.NatToString(pixels) + "像素"
    }
  }

  /** The x suggestion, present when the x error is beyond tolerance. */
  function HorizontalSuggestion(dx: int): Option<Suggestion> {
    if Abs(dx) > Tolerance then Some(Suggestion(if dx > 0 then Left else Right, Abs(dx))) else None
  }

  /** The y suggestion, present when the y error is beyond tolerance. */
  function VerticalSuggestion(dy: int): Option<Suggestion> {
    if Abs(dy) > Tolerance then Some(Suggestion(if dy > 0 then Up else Down, Abs(dy))) else None
  }

  /** The suggestions for an offset: the x entry (if any) before the y entry (if any). */
  function Suggestions(offset: Point): (s: seq<Suggestion>)
    ensures |s| == (if Abs(offset.x) > 15 then 1 else 0) + (if Abs(offset.y) > 15 then 1 else 0)
    ensures Abs(offset.x) > 15 ==> s[0] == Suggestion(if offset.x > 0 then Left else Right, Abs(offset.x))
    ensures Abs(offset.y) > 15 ==> s[|s| - 1] == Suggestion(if offset.y > 0 then Up else Down, Abs(offset.y))
    ensures !Within(offset, 15) ==> 1 <= |s| <= 2
  {
    ToSeq(HorizontalSuggestion(offset.x)) + ToSeq(VerticalSuggestion(offset.y))
  }

  /** The click moved as a suggestion says; screen y grows downwards. */
  function Shift(p: Point, s: Suggestion): Point {
    match s.direction
    case Left => Point(p.x - s.pixels, p.y)
    case Right => Point(p.x + s.pixels, p.y)
    case Up => Point(p.x, p.y - s.pixels)
    case Down => Point(p.x, p.y + s.pixels)
  }

  /** Following the suggestions of a missed click lands it on the target:
      each one cancels its axis' error exactly and leaves the other axis alone. */
  lemma SuggestionsReachTarget(final: Point, target: Point)
    ensures var s := Suggestions(Sub(final, target));
      forall k :: 0 <= k < |s| ==>
        (s[k].direction in {Left, Right} ==> Shift(final, s[k]) == Point(target.x, final.y))
        && (s[k].direction in {Up, Down} ==> Shift(final, s[k]) == Point(final.x, target.y))
  {
  }

  /** The suggestion texts, in order. */
  function Texts(s: seq<Suggestion>): (t: seq<string>)
    ensures |t| == |s| && forall k :: 0 <= k < |s| ==> t[k] == s[k].Phrase()
  {
    seq(|s|, k requires 0 <= k < |s| => s[k].Phrase())
  }

  /** `"建议" + "，".join(...)` over the suggestion texts. */
  function Advice(s: seq<Suggestion>): string {
    "建议" + Text.Join("，", Texts(s))
  }

  /** The reflector's analysis result. `success` says that the analysis
      itself ran; `operationSuccess` is the verdict on the click. */
  datatype Analysis = Analysis(
    success: bool,
    operationSuccess: bool,
    outcome: Outcome,
    confidence: nat,
    suggestions: seq<Suggestion>,
    improvementSuggestions: string)

  /** One entry of `learning_events`. */
  datatype LearningEvent = LearningEvent(originalCoords: Point, targetCoords: Point, offset: Point, adjustment: Point)

  /** The analysis, the executor calls it made and the learning event it logged, if any. */
  datatype Judgment = Judgment(analysis: Analysis, calls: seq<Call>, event: Option<LearningEvent>)

  /** `perform_intelligent_analysis`: `original` is the requested click,
      `final` the calibrated click actually dispatched. */
  function PerformIntelligentAnalysis(original: Point, final: Point, target: Point): (r: Judgment)
    ensures r.analysis.success
    ensures r.analysis.operationSuccess <==> Abs(final.x - target.x) <= 15 && Abs(final.y - target.y) <= 15
    ensures r.analysis.operationSuccess ==>
      && r.analysis.outcome.Letter() == "A" && r.analysis.confidence == 95
      && r.analysis.suggestions == [] && r.calls == [] && r.event == None
      && r.analysis.improvementSuggestions == "操作精度良好，建议保持当前策略"
    ensures !r.analysis.operationSuccess ==>
      && r.analysis.outcome.Letter() == "C" && r.analysis.confidence == 90
      && 1 <= |r.analysis.suggestions| <= 2
      && r.analysis.suggestions == Suggestions(Sub(final, target))
      && r.analysis.improvementSuggestions == Advice(r.analysis.suggestions)
      && r.event.Some?
      && r.event.value.originalCoords == original && r.event.value.targetCoords == target
      && Add(target, r.event.value.offset) == final
      && Add(final, r.event.value.adjustment) == target
      && r.calls == [StoreAdjustment(original, r.event.value.adjustment)]
  {
    var offset := Sub(final, target);
    if Within(offset, Tolerance) then
      Judgment(
        Analysis(true, true, OutcomeA, SuccessConfidence, [], "操作精度良好，建议保持当前策略"),
        [], None)
    else
      var suggestions := Suggestions(offset);
      var adjustment := Neg(offset);
      Judgment(
        Analysis(true, false, OutcomeC, FailureConfidence, suggestions, Advice(suggestions)),
        [StoreAdjustment(original, adjustment)],
        Some(LearningEvent(original, target, offset, adjustment)))
  }

  /** Every learning event pairs an offset with its exact negation. */
  lemma LearningEventNegatesOffset(original: Point, final: Point, target: Point)
    requires PerformIntelligentAnalysis(original, final, target).event.Some?
    ensures var e := PerformIntelligentAnalysis(original, final, target).event.value;
      e.adjustment.x == -e.offset.x && e.adjustment.y == -e.offset.y
  {
  }

  /** A label drawn next to a missed click in the mock screenshot:
      "偏右", "偏左", "偏下", "偏上". */
  datatype HintLabel = LeansRight | LeansLeft | LeansDown | LeansUp

  /** The mock "after" screenshot: nothing drawn for other scenario types,
      a pressed button for a hit, or the miss marker with its labels. */
  datatype AfterScreenshot = Plain | Pressed | Missed(labels: seq<HintLabel>)

  /** The button drawing of `create_realistic_screenshots`, judged on the
      scenario's raw coordinates. */
  function AfterScreenshotFor(kind: string, coords: Point, target: Point): (a: AfterScreenshot)
    ensures kind != "button_click" <==> a == Plain
    ensures a.Pressed? <==> kind == "button_click" && Abs(coords.x - target.x) <= 15 && Abs(coords.y - target.y) <= 15
    ensures a.Missed? ==>
      && |a.labels| == (if Abs(coords.x - target.x) > 15 then 1 else 0) + (if Abs(coords.y - target.y) > 15 then 1 else 0)
      && (LeansRight in a.labels <==> coords.x - target.x > 15)
      && (LeansLeft in a.labels <==> coords.x - target.x < -15)
      && (LeansDown in a.labels <==> coords.y - target.y > 15)
      && (LeansUp in a.labels <==> coords.y - target.y < -15)
  {
    if kind != "button_click" then Plain
    else
      var offset := Sub(coords, target);
      if Within(offset, Tolerance) then Pressed
      else
        var horizontal := if offset.x > 15 then [LeansRight] else if offset.x < -15 then [LeansLeft] else [];
        var vertical := if offset.y > 15 then [LeansDown] else if offset.y < -15 then [LeansUp] else [];
        Missed(horizontal + vertical)
  }

  /** For the same miss the screenshot label and the reflector's suggestion
      point in opposite directions: "偏右" goes with "向左" and "偏左" with
      "向右"; "偏下" goes with "向上" and "偏上" with "向下". */
  lemma LabelOpposesSuggestion(coords: Point, target: Point)
    requires !Within(Sub(coords, target), Tolerance)
    ensures var labels := AfterScreenshotFor("button_click", coords, target).labels;
      var s := Suggestions(Sub(coords, target));
      var dx := coords.x - target.x;
      var dy := coords.y - target.y;
      && (LeansRight in labels <==> Suggestion(Left, Abs(dx)) in s)
      && (LeansLeft in labels <==> Suggestion(Right, Abs(dx)) in s)
      && (LeansDown in labels <==> Suggestion(Up, Abs(dy)) in s)
      && (LeansUp in labels <==> Suggestion(Down, Abs(dy)) in s)
  {
  }

  /** One demo scenario: its screenshot type, requested click and target. */
  datatype Scenario = Scenario(kind: string, coords: Point, target: Point)

  /** What the executor's learned-adjustment lookup and calibration answered
      for a scenario; they are inputs here. */
  datatype Calibration = Calibration(learned: Point, final: Point)

  /** One entry of `operations`. */
  datatype OperationRecord = OperationRecord(originalCoords: Point, learnedAdjustment: Point, finalCoords: Point)

  /** The demo's `session_data` and the executor-call log. */
  datatype Session = Session(operations: seq<OperationRecord>, learningEvents: seq<LearningEvent>, calls: seq<Call>)

  /** One scenario of `run_comprehensive_demo`: execute, record, analyse. */
  function RunScenario(s: Session, sc: Scenario, c: Calibration): (r: Session)
    ensures r.operations == s.operations + [OperationRecord(sc.coords, c.learned, c.final)]
    ensures Within(Sub(c.final, sc.target), 15) ==> r.learningEvents == s.learningEvents && r.calls == s.calls
    ensures !Within(Sub(c.final, sc.target), 15) ==>
      && |r.learningEvents| == |s.learningEvents| + 1
      && r.learningEvents[..|s.learningEvents|] == s.learningEvents
      && r.learningEvents[|s.learningEvents|] ==
           LearningEvent(sc.coords, sc.target, Sub(c.final, sc.target), Sub(sc.target, c.final))
      && r.calls == s.calls + [StoreAdjustment(sc.coords, Sub(sc.target, c.final))]
  {
    var j := PerformIntelligentAnalysis(sc.coords, c.final, sc.target);
    Session(
      s.operations + [OperationRecord(sc.coords, c.learned, c.final)],
      s.learningEvents + ToSeq(j.event),
      s.calls + j.calls)
  }

  /** Number of scenarios whose dispatched click misses the target. */
  function MissCount(scenarios: seq<Scenario>, cals: seq<Calibration>): (n: nat)
    requires |scenarios| == |cals|
    ensures n <= |scenarios|
  {
    if scenarios == [] then 0
    else
      var k := |scenarios| - 1;
      MissCount(scenarios[..k], cals[..k]) + (if Within(Sub(cals[k].final, scenarios[k].target), Tolerance) then 0 else 1)
  }

  /** `run_comprehensive_demo` over a list of scenarios, with the executor's
      answer for each. */
  function RunScenarios(scenarios: seq<Scenario>, cals: seq<Calibration>): (r: Session)
    requires |scenarios| == |cals|
    ensures |r.operations| == |scenarios|
    ensures |r.learningEvents| <= |scenarios| && |r.calls| <= |scenarios|
    decreases |scenarios|
  {
    if scenarios == [] then Session([], [], [])
    else
      var k := |scenarios| - 1;
      RunScenario(RunScenarios(scenarios[..k], cals[..k]), scenarios[k], cals[k])
  }

  /** Each scenario appends exactly one operation record, in order. */
  lemma {:induction false} ScenarioOperations(scenarios: seq<Scenario>, cals: seq<Calibration>)
    requires |scenarios| == |cals|
    ensures var r := RunScenarios(scenarios, cals);
      && |r.operations| == |scenarios|
      && forall k :: 0 <= k < |scenarios| ==>
           r.operations[k] == OperationRecord(scenarios[k].coords, cals[k].learned, cals[k].final)
    decreases |scenarios|
  {
    if scenarios != [] {
      var k := |scenarios| - 1;
      var prev := RunScenarios(scenarios[..k], cals[..k]);
      ScenarioOperations(scenarios[..k], cals[..k]);
      var r := RunScenarios(scenarios, cals);
      assert r == RunScenario(prev, scenarios[k], cals[k]);
      assert r.operations == prev.operations + [OperationRecord(scenarios[k].coords, cals[k].learned, cals[k].final)];
      forall i | 0 <= i < |scenarios|
        ensures r.operations[i] == OperationRecord(scenarios[i].coords, cals[i].learned, cals[i].final)
      {
        if i < k {
          assert scenarios[..k][i] == scenarios[i] && cals[..k][i] == cals[i];
        }
      }
    }
  }

  /** A learning event and a store call are logged for each miss and for
      nothing else. */
  lemma {:induction false} ScenarioLearning(scenarios: seq<Scenario>, cals: seq<Calibration>)
    requires |scenarios| == |cals|
    ensures var r := RunScenarios(scenarios, cals);
      && |r.learningEvents| == MissCount(scenarios, cals)
      && |r.calls| == MissCount(scenarios, cals)
      && StoreCount(r.calls) == MissCount(scenarios, cals)
    decreases |scenarios|
  {
    if scenarios != [] {
      var k := |scenarios| - 1;
      var prev := RunScenarios(scenarios[..k], cals[..k]);
      ScenarioLearning(scenarios[..k], cals[..k]);
      var r := RunScenario(prev, scenarios[k], cals[k]);
      if !Within(Sub(cals[k].final, scenarios[k].target), Tolerance) {
        assert r.calls[..|r.calls| - 1] == prev.calls;
      }
    }
  }

  /** The demo's first scenario before anything is learned (no adjustment,
      so the click at [450, 580] is dispatched as is): a miss of [-50, -20]
      against [500, 600], two suggestions, and a correction of [50, 20]
      stored under [450, 580]. */
  lemma FirstScenarioUncalibrated()
    ensures var j := PerformIntelligentAnalysis(Point(450, 580), Point(450, 580), Point(500, 600));
      && j.analysis.outcome == OutcomeC
      && j.analysis.improvementSuggestions == "建议向右调整50像素，向下调整20像素"
      && j.calls == [StoreAdjustment(Point(450, 580), Point(50, 20))]
  {
    var offset := Point(-50, -20);
    assert Sub(Point(450, 580), Point(500, 600)) == offset;
    assert !Within(offset, Tolerance);
    var s := Suggestions(offset);
    assert s == [Suggestion(Right, 50), Suggestion(Down, 20)];
    assert Text.NatToString(50) == "50" by {
      assert Text.NatToString(5) == "5";
    }
    assert Text.NatToString(20) == "20" by {
      assert Text.NatToString(2) == "2";
    }
    var right := "向右调整50像素";
    var down := "向下调整20像素";
    assert s[0].Phrase() == right;
    assert s[1].Phrase() == down;
    var t := Texts(s);
    assert t == [right, down];
    assert Text.Join("，", t) == right + "，" + down by {
      assert t[1..] == [down];
    }
    assert Advice(s) == "建议向右调整50像素，向下调整20像素";
  }
}

=== FILE: executor_calls.dfy ===
/** The calls the demos make into the executor's learning store.

    The executor's store and strategy-update methods are not part of this
    model: a call into them is recorded as a `Call` value, and a run of
    a demo produces the log of calls it made, in order. */
module ExecutorCalls {
  import opened Geometry

  /** An execution-policy override. Seconds are kept in tenths so that the
      demos' `10.0` and `1.5` are exact integers. */
  datatype Strategy = Strategy(timeoutTenths: nat, retryDelayTenths: nat, verificationRequired: bool)

  /** The action kind whose strategy the learning demo escalates. */
  const ClickAction: string := "click_action"

  /** `{"timeout": 10.0, "retry_delay": 1.5, "verification_required": True}`. */
  const EscalatedStrategy: Strategy := Strategy(100, 15, true)

  datatype Call =
    | StoreAdjustment(coords: Point, adjustment: Point)  // `_store_coordinate_adjustment(coords, adjustment)`
    | UpdateStrategy(taskType: string, strategy: Strategy) // `_update_execution_strategy(task_type, strategy)`

  /** Number of store calls in a log. */
  function StoreCount(log: seq<Call>): (n: nat)
    ensures n <= |log|
  {
    if log == [] then 0
    else StoreCount(log[..|log| - 1]) + (if log[|log| - 1].StoreAdjustment? then 1 else 0)
  }

  /** Number of strategy-update calls in a log. */
  function UpdateCount(log: seq<Call>): (n: nat)
    ensures n <= |log|
  {
    if log == [] then 0
    else UpdateCount(log[..|log| - 1]) + (if log[|log| - 1].UpdateStrategy? then 1 else 0)
  }

  /** Counting distributes over concatenating two logs. */
  lemma {:induction false} CountsAppend(a: seq<Call>, b: seq<Call>)
    ensures StoreCount(a + b) == StoreCount(a) + StoreCount(b)
    ensures UpdateCount(a + b) == UpdateCount(a) + UpdateCount(b)
    decreases |b|
  {
    if b == [] {
      assert a + b == a;
    } else {
      var b' := b[..|b| - 1];
      assert (a + b)[..|a + b| - 1] == a + b';
      CountsAppend(a, b');
    }
  }
}

=== FILE: geometry.dfy ===
/** Integer screen coordinates and the pixel arithmetic shared by the demos. */
module Geometry {

  /** A screen coordinate or a signed pixel offset (the `[x, y]` lists of the demos).
      Screen y grows downwards. */
  datatype Point = Point(x: int, y: int)

  const Origin: Point := Point(0, 0)

  function Abs(v: int): (r: nat)
    ensures r == v || r == -v
  {
    if v < 0 then -v else v
  }

  function Min(a: int, b: int): int { if a <= b then a else b }

  function Max(a: int, b: int): int { if a >= b then a else b }

  /** Componentwise `p - q`. */
  function Sub(p: Point, q: Point): Point {
    Point(p.x - q.x, p.y - q.y)
  }

  /** Componentwise `p + q`. */
  function Add(p: Point, q: Point): Point {
    Point(p.x + q.x, p.y + q.y)
  }

  function Neg(p: Point): Point {
    Point(-p.x, -p.y)
  }

  /** Both axis errors are at most `tol` pixels; the boundary value counts as inside. */
  predicate Within(offset: Point, tol: nat) {
    Abs(offset.x) <= tol && Abs(offset.y) <= tol
  }

  /** Python's `max(-m, min(m, v))`: `v` pulled into the interval [-m, m]. */
  function Clamp(v: int, m: int): (r: int)
    requires 0 <= m
    ensures -m <= r <= m
    ensures -m <= v <= m ==> r == v
    ensures v > m ==> r == m
    ensures v < -m ==> r == -m
  {
    Max(-m, Min(m, v))
  }
}

=== FILE: real_learning.dfy ===
/** The coordinate learning cycle of the real-learning demo: each test click
    is compared with the target, judged with a 10 px tolerance, and on a miss
    turns into a clamped correction for the executor's store and, for a large
    miss, an escalated `click_action` strategy. */
module RealLearning {
  import opened Geometry
  import opened ExecutorCalls

  /** Largest per-axis error still judged a hit. */
  const Tolerance: nat := 10

  /** Largest per-axis correction one iteration may store. */
  const MaxAdjustment: nat := 20

  /** A per-axis error strictly above this escalates the click strategy. */
  const EscalationThreshold: nat := 30

  /** One entry of `learning_iterations`. */
  datatype IterationRecord = IterationRecord(
    iteration: int,
    testCoords: Point,
    targetCoords: Point,
    offset: Point,
    success: bool,
    adjustment: Point)

  /** An iteration's record together with the executor calls it made, in order. */
  datatype Iteration = Iteration(record: IterationRecord, calls: seq<Call>)

  predicate Escalates(offset: Point) {
    Abs(offset.x) > EscalationThreshold || Abs(offset.y) > EscalationThreshold
  }

  /** The correction for a miss: the negated offset, clamped per axis. */
  function Correction(offset: Point): Point {
    Point(Clamp(-offset.x, MaxAdjustment), Clamp(-offset.y, MaxAdjustment))
  }

  /** `_perform_learning_iteration(iteration, test_coords, target_coords)`. */
  function PerformIteration(iteration: int, test: Point, target: Point): (r: Iteration)
    ensures r.record.iteration == iteration
    ensures r.record.testCoords == test && r.record.targetCoords == target
    ensures Add(target, r.record.offset) == test
    ensures r.record.success <==> Abs(test.x - target.x) <= 10 && Abs(test.y - target.y) <= 10
    ensures r.record.success ==> r.record.adjustment == Origin && r.calls == []
    ensures !r.record.success ==>
      && Abs(r.record.adjustment.x) <= 20 && Abs(r.record.adjustment.y) <= 20
      && r.record.adjustment.x * r.record.offset.x <= 0
      && r.record.adjustment.y * r.record.offset.y <= 0
      && (Abs(r.record.offset.x) <= 20 ==> r.record.adjustment.x == -r.record.offset.x)
      && (Abs(r.record.offset.y) <= 20 ==> r.record.adjustment.y == -r.record.offset.y)
      && (Abs(r.record.offset.x) > 20 ==> Abs(r.record.adjustment.x) == 20)
      && (Abs(r.record.offset.y) > 20 ==> Abs(r.record.adjustment.y) == 20)
      && |r.calls| >= 1
      && r.calls[0] == StoreAdjustment(test, r.record.adjustment)
    ensures StoreCount(r.calls) == (if r.record.success then 0 else 1)
    ensures UpdateCount(r.calls) == (if Abs(test.x - target.x) > 30 || Abs(test.y - target.y) > 30 then 1 else 0)
    ensures forall k :: 0 <= k < |r.calls| && r.calls[k].UpdateStrategy? ==>
      r.calls[k] == UpdateStrategy(ClickAction, EscalatedStrategy)
  {
    var offset := Sub(test, target);
    var success := Within(offset, Tolerance);
    if success then
      Iteration(IterationRecord(iteration, test, target, offset, true, Origin), [])
    else
      var adjustment := Correction(offset);
      var store := [StoreAdjustment(test, adjustment)];
      var calls := if Escalates(offset) then store + [UpdateStrategy(ClickAction, EscalatedStrategy)] else store;
      assert calls[..1] == store;
      Iteration(IterationRecord(iteration, test, target, offset, false, adjustment), calls)
  }

  /** A stored correction moves a missed click towards the target by up to
      20 px per axis and never past it: the remaining error on each axis is
      the old error less 20, or zero. */
  lemma CorrectionNeverOvershoots(test: Point, target: Point)
    requires !PerformIteration(1, test, target).record.success
    ensures var r := PerformIteration(1, test, target).record;
      var corrected := Add(test, r.adjustment);
      && Abs(corrected.x - target.x) == Max(0, Abs(test.x - target.x) - 20)
      && Abs(corrected.y - target.y) == Max(0, Abs(test.y - target.y) - 20)
  {
  }

  /** Escalation only happens on a miss: an error above 30 px is above 10 px. */
  lemma EscalationOnlyOnFailure(iteration: int, test: Point, target: Point)
    requires Abs(test.x - target.x) > 30 || Abs(test.y - target.y) > 30
    ensures !PerformIteration(iteration, test, target).record.success
    ensures UpdateStrategy(ClickAction, EscalatedStrategy) in PerformIteration(iteration, test, target).calls
  {
    var r := PerformIteration(iteration, test, target);
    assert r.calls[|r.calls| - 1] == UpdateStrategy(ClickAction, EscalatedStrategy);
  }

  /** The learning records and the executor-call log of a whole cycle. */
  datatype CycleLog = CycleLog(records: seq<IterationRecord>, calls: seq<Call>)

  /** The cycle of `simulate_coordinate_learning_cycle`: one iteration per test
      coordinate, in order, numbered from 1. */
  function RunCycle(target: Point, inputs: seq<Point>): (r: CycleLog)
    ensures |r.records| == |inputs|
    decreases |inputs|
  {
    if inputs == [] then CycleLog([], [])
    else
      var n := |inputs|;
      var prev := RunCycle(target, inputs[..n - 1]);
      var step := PerformIteration(n, inputs[n - 1], target);
      CycleLog(prev.records + [step.record], prev.calls + step.calls)
  }

  /** Record `k` of a cycle is the record of iteration `k + 1` on the `k`-th
      test coordinate: one record per input, in input order, numbered from 1. */
  lemma {:induction false} RunCycleRecords(target: Point, inputs: seq<Point>)
    ensures forall k :: 0 <= k < |inputs| ==>
      RunCycle(target, inputs).records[k] == PerformIteration(k + 1, inputs[k], target).record
    decreases |inputs|
  {
    if inputs != [] {
      var n := |inputs|;
      RunCycleRecords(target, inputs[..n - 1]);
    }
  }

  /** Number of records judged a miss. */
  function FailureCount(records: seq<IterationRecord>): (n: nat)
    ensures n <= |records|
  {
    if records == [] then 0
    else FailureCount(records[..|records| - 1]) + (if records[|records| - 1].success then 0 else 1)
  }

  /** Number of records whose error exceeds the escalation threshold. */
  function EscalationCount(records: seq<IterationRecord>): (n: nat)
    ensures n <= |records|
  {
    if records == [] then 0
    else EscalationCount(records[..|records| - 1]) + (if Escalates(records[|records| - 1].offset) then 1 else 0)
  }

  /** The log holds exactly one store call per missed iteration and exactly
      one strategy update per escalating iteration. */
  lemma {:induction false} LogMatchesRecords(target: Point, inputs: seq<Point>)
    ensures StoreCount(RunCycle(target, inputs).calls) == FailureCount(RunCycle(target, inputs).records)
    ensures UpdateCount(RunCycle(target, inputs).calls) == EscalationCount(RunCycle(target, inputs).records)
    decreases |inputs|
  {
    if inputs != [] {
      var n := |inputs|;
      var prev := RunCycle(target, inputs[..n - 1]);
      var step := PerformIteration(n, inputs[n - 1], target);
      var r := RunCycle(target, inputs);
      LogMatchesRecords(target, inputs[..n - 1]);
      CountsAppend(prev.calls, step.calls);
      assert r.records[..n - 1] == prev.records;
      assert r.records[n - 1] == step.record;
    }
  }

  /** The driver loop of `simulate_coordinate_learning_cycle`, appending one
      record per test coordinate. */
  method SimulateLearningCycle(target: Point, inputs: seq<Point>) returns (log: CycleLog)
    ensures log == RunCycle(target, inputs)
    ensures forall k :: 0 <= k < |inputs| ==>
      log.records[k].iteration == k + 1 && log.records[k].testCoords == inputs[k]
  {
    log := CycleLog([], []);
    for i := 0 to |inputs|
      invariant log == RunCycle(target, inputs[..i])
    {
      var step := PerformIteration(i + 1, inputs[i], target);
      assert inputs[..i + 1][..i] == inputs[..i];
      log := CycleLog(log.records + [step.record], log.calls + step.calls);
    }
    assert inputs[..|inputs|] == inputs;
    RunCycleRecords(target, inputs);
  }

  const DemoTarget: Point := Point(500, 650)

  /** The five iterations of the demo towards [500, 650], each on its own:
      the clicks at [450, 600] and [480, 620] miss and are each corrected by
      [20, 20]; the clicks at [495, 640], [498, 648] and [500, 650] hit (the
      third's y error of 10 is on the boundary). */
  lemma DemoIterations()
    ensures PerformIteration(1, Point(450, 600), DemoTarget) == Iteration(
      IterationRecord(1, Point(450, 600), DemoTarget, Point(-50, -50), false, Point(20, 20)),
      [StoreAdjustment(Point(450, 600), Point(20, 20)), UpdateStrategy(ClickAction, EscalatedStrategy)])
    ensures PerformIteration(2, Point(480, 620), DemoTarget) == Iteration(
      IterationRecord(2, Point(480, 620), DemoTarget, Point(-20, -30), false, Point(20, 20)),
      [StoreAdjustment(Point(480, 620), Point(20, 20))])
    ensures PerformIteration(3, Point(495, 640), DemoTarget) == Iteration(
      IterationRecord(3, Point(495, 640), DemoTarget, Point(-5, -10), true, Origin), [])
    ensures PerformIteration(4, Point(498, 648), DemoTarget) == Iteration(
      IterationRecord(4, Point(498, 648), DemoTarget, Point(-2, -2), true, Origin), [])
    ensures PerformIteration(5, Point(500, 650), DemoTarget) == Iteration(
      IterationRecord(5, Point(500, 650), DemoTarget, Point(0, 0), true, Origin), [])
  {
  }

  /** The executor-call log of the demo's run: a store per miss, and a
      strategy update only after the first miss, since the second's y error
      of 30 is not above 30. */
  lemma DemoRun()
    ensures RunCycle(Point(500, 650),
      [Point(450, 600)] + [Point(480, 620)] + [Point(495, 640)] + [Point(498, 648)] + [Point(500, 650)]).calls == [
        StoreAdjustment(Point(450, 600), Point(20, 20)),
        UpdateStrategy(ClickAction, EscalatedStrategy),
        StoreAdjustment(Point(480, 620), Point(20, 20))]
  {
    var target := Point(500, 650);
    var store1 := StoreAdjustment(Point(450, 600), Point(20, 20));
    var update := UpdateStrategy(ClickAction, EscalatedStrategy);
    var store2 := StoreAdjustment(Point(480, 620), Point(20, 20));
    var i1 := [Point(450, 600)];
    var i2 := i1 + [Point(480, 620)];
    var i3 := i2 + [Point(495, 640)];
    var i4 := i3 + [Point(498, 648)];
    var i5 := i4 + [Point(500, 650)];
    assert PerformIteration(1, Point(450, 600), target).calls == [store1, update];
    RunCycleAppend(target, [], Point(450, 600));
    assert [] + [Point(450, 600)] == i1;
    assert RunCycle(target, i1).calls == [store1, update];
    assert PerformIteration(2, Point(480, 620), target).calls == [store2];
    RunCycleAppend(target, i1, Point(480, 620));
    assert RunCycle(target, i2).calls == [store1, update, store2];
    assert PerformIteration(3, Point(495, 640), target).calls == [];
    RunCycleAppend(target, i2, Point(495, 640));
    assert RunCycle(target, i3).calls == [store1, update, store2];
    assert PerformIteration(4, Point(498, 648), target).calls == [];
    RunCycleAppend(target, i3, Point(498, 648));
    assert RunCycle(target, i4).calls == [store1, update, store2];
    assert PerformIteration(5, Point(500, 650), target).calls == [];
    RunCycleAppend(target, i4, Point(500, 650));
    assert RunCycle(target, i5).calls == [store1, update, store2];
  }

  /** One more test coordinate adds one record and that iteration's calls. */
  lemma RunCycleAppend(target: Point, inputs: seq<Point>, p: Point)
    ensures var step := PerformIteration(|inputs| + 1, p, target);
      RunCycle(target, inputs + [p]) ==
        CycleLog(RunCycle(target, inputs).records + [step.record], RunCycle(target, inputs).calls + step.calls)
  {
    assert (inputs + [p])[..|inputs|] == inputs;
  }
}

=== FILE: screen_dimensions.dfy ===
/** The screen-dimension comparison experiment: the `adb devices` filter,
    the `wm size` parser, the `dumpsys display` line classifier and the
    rules that compare the resolution adb reports with the size of a
    screenshot. Every subprocess call is an input of type `Command`. */
module ScreenDimensions {
  import opened Wrappers
  import opened Text
  import Geometry

  /** A (width, height) pair. */
  datatype Size = Size(width: int, height: int)

  /** What one `subprocess.run` gave: it completed with a return code and
      its standard output, or it raised (timeout, adb missing). */
  datatype Command = Completed(returnCode: int, stdout: string) | Raised {
    predicate Succeeded() {
      Completed? && returnCode == 0
    }
  }

  // ---------------------------------------------------------------------
  // `adb devices`

  /** A listing line kept as a connected device: non-blank and containing
      "device" anywhere (so an "offline" or "unauthorized" line is dropped). */
  predicate IsDeviceLine(line: string) {
    Strip(line) != [] && Contains(line, "device")
  }

  /** The lines that are device lines, in their original order. */
  function KeepDeviceLines(lines: seq<string>): (kept: seq<string>)
    ensures |kept| <= |lines|
  {
    if lines == [] then []
    else
      var last := lines[|lines| - 1];
      KeepDeviceLines(lines[..|lines| - 1]) + (if IsDeviceLine(last) then [last] else [])
  }

  /** Filtering distributes over concatenation: the kept lines of two
      listings are those of the first followed by those of the second. */
  lemma {:induction false} KeepDeviceLinesAppend(a: seq<string>, b: seq<string>)
    ensures KeepDeviceLines(a + b) == KeepDeviceLines(a) + KeepDeviceLines(b)
    decreases |b|
  {
    if b == [] {
      assert a + b == a;
    } else {
      var b' := b[..|b| - 1];
      assert (a + b)[..|a + b| - 1] == a + b';
      KeepDeviceLinesAppend(a, b');
    }
  }

  /** A line is kept exactly when it is one of the given lines and a device line. */
  lemma {:induction false} KeptLinesAreDeviceLines(lines: seq<string>)
    ensures forall l :: l in KeepDeviceLines(lines) <==> l in lines && IsDeviceLine(l)
    decreases |lines|
  {
    if lines != [] {
      var prefix := lines[..|lines| - 1];
      KeptLinesAreDeviceLines(prefix);
      assert lines == prefix + [lines[|lines| - 1]];
    }
  }

  /** The device lines of an `adb devices` output; its first line, the
      "List of devices attached" header, is never considered. */
  function ConnectedDevices(stdout: string): (devices: seq<string>)
    ensures |devices| < |Split(Strip(stdout), "\n")|
  {
    KeepDeviceLines(Split(Strip(stdout), "\n")[1..])
  }

  /** A listing that is only its header line has no devices, whatever the
      header says ("List of devices attached" itself contains "device"). */
  lemma HeaderOnlyListsNoDevice(header: string)
    requires header != [] && !IsSpace(header[0]) && !IsSpace(header[|header| - 1])
    requires forall i :: 0 <= i < |header| ==> header[i] != '\n'
    ensures ConnectedDevices(header + "\n") == []
  {
    var s := header + "\n";
    assert SkipSpaceBack(s, 0, |s|) == |header| by {
      assert s[|s| - 1] == '\n' && s[|header| - 1] == header[|header| - 1];
    }
    assert s[0..|header|] == header;
    assert forall i :: 0 <= i < |header| ==> header[i] != "\n"[0];
    SplitWithoutSeparator(header, "\n");
  }

  /** After the header, a line is listed exactly when it is a device line. */
  lemma OneLineAfterHeader(header: string, line: string)
    requires header != [] && !IsSpace(header[0])
    requires line != [] && !IsSpace(line[|line| - 1])
    requires forall i :: 0 <= i < |header| ==> header[i] != '\n'
    requires forall i :: 0 <= i < |line| ==> line[i] != '\n'
    ensures ConnectedDevices(header + "\n" + line) == if IsDeviceLine(line) then [line] else []
  {
    var s := header + "\n" + line;
    assert s[0] == header[0] && s[|s| - 1] == line[|line| - 1];
    StripUnchanged(s);
    assert forall i :: 0 <= i < |header| ==> header[i] != "\n"[0];
    assert forall i :: 0 <= i < |line| ==> line[i] != "\n"[0];
    SplitAround(header, "\n", line);
    assert Split(Strip(s), "\n")[1..] == [line];
    assert [line][..0] == [];
  }

  /** The reported device id: the first token of the first device line,
      present exactly when some device is connected. */
  function DeviceId(stdout: string): (id: Option<string>)
    ensures id.Some? <==> ConnectedDevices(stdout) != []
    ensures id.Some? ==> IsFirstToken(ConnectedDevices(stdout)[0], id.value)
  {
    var devices := ConnectedDevices(stdout);
    if devices == [] then None
    else
      KeptLinesAreDeviceLines(Split(Strip(stdout), "\n")[1..]);
      assert devices[0] in devices;
      FirstToken(devices[0])
  }

  // ---------------------------------------------------------------------
  // `wm size`

  const PhysicalMarker := "Physical size:"
  const OverrideMarker := "Override size:"

  /** `map(int, part.strip().split('x'))` unpacked into a width and a height;
      `None` where Python raises (not exactly two pieces, or a piece that is
      not an integer). */
  function ParseSizePart(part: string): (r: Option<Size>)
    ensures r.Some? <==>
      var pieces := Split(Strip(part), "x");
      |pieces| == 2 && ParseInt(pieces[0]).Some? && ParseInt(pieces[1]).Some?
    ensures r.Some? ==>
      var pieces := Split(Strip(part), "x");
      Strip(part) == pieces[0] + "x" + pieces[1]
      && r.value == Size(ParseInt(pieces[0]).value, ParseInt(pieces[1]).value)
  {
    var pieces := Split(Strip(part), "x");
    if |pieces| != 2 then None
    else
      match (ParseInt(pieces[0]), ParseInt(pieces[1]))
      case (Some(w), Some(h)) =>
        assert Strip(part) == pieces[0] + "x" + pieces[1] by {
          assert pieces[1..] == [pieces[1]];
        }
        Some(Size(w, h))
      case _ => None
  }

  /** A size as adb prints it: `<width>x<height>`. */
  function SizeText(w: nat, h: nat): (s: string)
    ensures |s| >= 3 && IsDigit(s[0]) && IsDigit(s[|s| - 1])
    ensures forall i :: 0 <= i < |s| ==> s[i] != 'P' && s[i] != '\n' && (IsDigit(s[i]) || s[i] == 'x')
  {
    NatToString(w) + "x" + NatToString(h)
  }

  /** The size part reads back what was printed, after the marker's space. */
  lemma ParseSizeText(w: nat, h: nat)
    ensures ParseSizePart(" " + SizeText(w, h)) == Some(Size(w, h))
  {
    var W := NatToString(w);
    var H := NatToString(h);
    var t := W + "x" + H;
    assert t == SizeText(w, h);
    assert Strip(" " + t) == t by {
      assert " " + t == [' '] + t;
      assert t[0] == W[0] && t[|t| - 1] == H[|H| - 1];
      StripPadded(' ', t);
    }
    assert forall i :: 0 <= i < |W| ==> W[i] != "x"[0];
    assert forall i :: 0 <= i < |H| ==> H[i] != "x"[0];
    assert Split(H, "x") == [H] by {
      SplitWithoutSeparator(H, "x");
    }
    assert Split(t, "x") == [W, H] by {
      SplitAfterPrefix(W, "x", H);
    }
    ParseIntOfDecimal(w);
    ParseIntOfDecimal(h);
    ParseSizePartOfPieces(" " + SizeText(w, h), W, H, w, h);
  }

  /** Two pieces that both parse give the size they spell. */
  lemma ParseSizePartOfPieces(part: string, a: string, b: string, x: int, y: int)
    requires Split(Strip(part), "x") == [a, b]
    requires ParseInt(a) == Some(x) && ParseInt(b) == Some(y)
    ensures ParseSizePart(part) == Some(Size(x, y))
  {
  }

  /** The size of `adb shell wm size` output: the text after the first
      "Physical size:" when that marker occurs anywhere, otherwise the text
      after the first "Override size:", otherwise nothing. */
  function ParseWmSize(stdout: string): (r: Option<Size>)
    ensures r.Some? ==> Contains(Strip(stdout), PhysicalMarker) || Contains(Strip(stdout), OverrideMarker)
  {
    var line := Strip(stdout);
    if Contains(line, PhysicalMarker) then ParseSizePart(Split(line, PhysicalMarker)[1])
    else if Contains(line, OverrideMarker) then ParseSizePart(Split(line, OverrideMarker)[1])
    else None
  }

  /** A line that starts and ends with non-blank text is its own strip. */
  lemma StripOfFramed(a: string, m: string, b: string)
    requires m != [] && !IsSpace(m[0])
    requires a == [] || !IsSpace(a[0])
    requires b != [] && !IsSpace(b[|b| - 1])
    ensures Strip(a + m + b) == a + m + b
  {
    var s := a + m + b;
    LastOfConcat(a + m, b);
    assert s[0] == if a == [] then m[0] else a[0];
    StripUnchanged(s);
  }

  /** Once "Physical size:" is found, the text after its first occurrence is parsed. */
  lemma ParseWmSizeAtPhysical(line: string, tail: string)
    requires Strip(line) == line && Contains(line, PhysicalMarker)
    requires |Split(line, PhysicalMarker)| >= 2 && Split(line, PhysicalMarker)[1] == tail
    ensures ParseWmSize(line) == ParseSizePart(tail)
  {
  }

  /** `pre + "Physical size:" + tail` splits at the marker, when neither side holds a 'P'. */
  lemma PhysicalMarkerSplits(pre: string, tail: string)
    requires forall i :: 0 <= i < |pre| ==> pre[i] != 'P'
    requires forall i :: 0 <= i < |tail| ==> tail[i] != 'P'
    ensures Contains(pre + PhysicalMarker + tail, PhysicalMarker)
    ensures Split(pre + PhysicalMarker + tail, PhysicalMarker) == [pre, tail]
  {
    assert PhysicalMarker[0] == 'P';
    SplitAround(pre, PhysicalMarker, tail);
  }

  /** Whenever the stripped output holds "Physical size:", the text parsed
      is what follows its first occurrence, up to a second occurrence if
      there is one; "Override size:" is not consulted. */
  lemma ParseAfterPhysical(stdout: string, pre: string, tail: string)
    requires Strip(stdout) == pre + PhysicalMarker + tail
    requires IndexOf(Strip(stdout), PhysicalMarker) == Some(|pre|)
    ensures ParseWmSize(stdout) == ParseSizePart(Split(tail, PhysicalMarker)[0])
    ensures !Contains(tail, PhysicalMarker) ==> ParseWmSize(stdout) == ParseSizePart(tail)
  {
    SplitAtFirst(pre, PhysicalMarker, tail);
  }

  /** Whenever the stripped output lacks "Physical size:" but holds
      "Override size:", the text parsed is what follows its first
      occurrence, up to a second occurrence if there is one. */
  lemma ParseAfterOverride(stdout: string, pre: string, tail: string)
    requires !Contains(Strip(stdout), PhysicalMarker)
    requires Strip(stdout) == pre + OverrideMarker + tail
    requires IndexOf(Strip(stdout), OverrideMarker) == Some(|pre|)
    ensures ParseWmSize(stdout) == ParseSizePart(Split(tail, OverrideMarker)[0])
    ensures !Contains(tail, OverrideMarker) ==> ParseWmSize(stdout) == ParseSizePart(tail)
  {
    SplitAtFirst(pre, OverrideMarker, tail);
  }

  /** After a prefix without a 'P', the text after "Physical size:" is parsed. */
  lemma PhysicalAfterPlainPrefix(pre: string, tail: string)
    requires forall i :: 0 <= i < |pre| ==> pre[i] != 'P'
    requires forall i :: 0 <= i < |tail| ==> tail[i] != 'P'
    requires pre == [] || !IsSpace(pre[0])
    requires tail != [] && !IsSpace(tail[|tail| - 1])
    ensures ParseWmSize(pre + PhysicalMarker + tail) == ParseSizePart(tail)
  {
    StripOfFramed(pre, PhysicalMarker, tail);
    PhysicalMarkerSplits(pre, tail);
    ParseWmSizeAtPhysical(pre + PhysicalMarker + tail, tail);
  }

  /** Output that begins with "Override size:": the text after it is parsed. */
  lemma OverrideAtStart(tail: string)
    requires forall i :: 0 <= i < |tail| ==> tail[i] != 'P' && tail[i] != 'O'
    requires Strip(OverrideMarker + tail) == OverrideMarker + tail
    ensures ParseWmSize(OverrideMarker + tail) == ParseSizePart(tail)
  {
    var s := OverrideMarker + tail;
    assert PhysicalMarker[0] == 'P' && OverrideMarker[0] == 'O';
    assert forall i :: 0 <= i < |s| ==> s[i] != PhysicalMarker[0];
    NotContainsFirstChar(s, PhysicalMarker);
    assert s == [] + OverrideMarker + tail;
    SplitAround([], OverrideMarker, tail);
    assert Split(s, OverrideMarker) == [[], tail];
    assert Contains(s, OverrideMarker);
    assert Split(Strip(s), OverrideMarker)[1] == tail;
    assert ParseWmSize(s) == ParseSizePart(Split(Strip(s), OverrideMarker)[1]);
  }

  /** "Physical size:" is read whatever precedes it (an "Override size:"
      line, say), and the printed size comes back. */
  lemma PhysicalSizeWins(pre: string, w: nat, h: nat)
    requires forall i :: 0 <= i < |pre| ==> pre[i] != 'P'
    requires pre == [] || !IsSpace(pre[0])
    ensures ParseWmSize(pre + PhysicalMarker + " " + SizeText(w, h)) == Some(Size(w, h))
  {
    var t := SizeText(w, h);
    PhysicalLineStripped(pre, t);
    assert pre + PhysicalMarker + " " + t == pre + PhysicalMarker + (" " + t);
    PhysicalAfterPlainPrefix(pre, " " + t);
    ParseSizeText(w, h);
  }

  /** A "Physical size:" line that starts and ends with printing characters
      is left alone by `strip`. */
  lemma PhysicalLineStripped(pre: string, t: string)
    requires pre == [] || !IsSpace(pre[0])
    requires t != [] && !IsSpace(t[|t| - 1])
    ensures Strip(pre + PhysicalMarker + " " + t) == pre + PhysicalMarker + " " + t
  {
    var s := pre + PhysicalMarker + " " + t;
    LastOfConcat(pre + PhysicalMarker + " ", t);
    assert s[0] == if pre == [] then 'P' else pre[0];
    StripUnchanged(s);
  }

  /** Without "Physical size:", the "Override size:" line is read. */
  lemma OverrideSizeRoundTrip(w: nat, h: nat)
    ensures ParseWmSize(OverrideMarker + " " + SizeText(w, h)) == Some(Size(w, h))
  {
    var t := SizeText(w, h);
    var s := OverrideMarker + " " + t;
    assert Strip(s) == s by {
      LastOfConcat(OverrideMarker + " ", t);
      StripUnchanged(s);
    }
    assert s == OverrideMarker + (" " + t);
    OverrideAtStart(" " + t);
    ParseSizeText(w, h);
  }

  /** A size followed by a unit, "1080x2400 dp", is no size: the height
      piece "2400 dp" is not an integer, and the exception handler turns
      that into `None`. */
  lemma TrailingUnitIsNoSize(w: nat, h: nat)
    ensures ParseSizePart(" " + SizeText(w, h) + " dp") == None
  {
    var W := NatToString(w);
    var b := NatToString(h) + " dp";
    var u := W + "x" + b;
    assert " " + SizeText(w, h) + " dp" == [' '] + u;
    NumberWithUnit(h);
    assert Strip([' '] + u) == u by {
      assert u[0] == W[0];
      LastOfConcat(W + "x", b);
      StripPadded(' ', u);
    }
    assert Split(u, "x") == [W, b] by {
      assert forall i :: 0 <= i < |W| ==> W[i] != "x"[0];
      SplitAround(W, "x", b);
    }
    ParseSizePartOfBadPiece([' '] + u, W, b);
  }

  /** "<digits> dp" holds no 'x', ends in a letter, and is not an integer. */
  lemma NumberWithUnit(h: nat)
    ensures var b := NatToString(h) + " dp";
      && b[|b| - 1] == 'p'
      && (forall i :: 0 <= i < |b| ==> b[i] != "x"[0])
      && ParseInt(b) == None
  {
    var H := NatToString(h);
    var b := H + " dp";
    assert b[|H|] == ' ';
    assert !IsSpace(b[0]) && !IsSpace(b[|b| - 1]);
    StripUnchanged(b);
  }

  /** Two pieces of which the second is not an integer make no size. */
  lemma ParseSizePartOfBadPiece(part: string, a: string, b: string)
    requires Split(Strip(part), "x") == [a, b]
    requires ParseInt(b) == None
    ensures ParseSizePart(part) == None
  {
  }

  /** Three pieces never make a size. */
  lemma ParseSizePartOfThreePieces(part: string)
    requires |Split(Strip(part), "x")| == 3
    ensures ParseSizePart(part) == None
  {
  }

  /** The text after "Physical size:" when an "Override size:" line
      follows holds two 'x's, so it is not a size. */
  lemma SizeThenOverrideIsNoSize(w: nat, h: nat, ow: nat, oh: nat)
    ensures ParseSizePart(" " + SizeText(w, h) + "\n" + OverrideMarker + " " + SizeText(ow, oh)) == None
  {
    var W := NatToString(w);
    var OH := NatToString(oh);
    var middle := NatToString(h) + "\n" + OverrideMarker + " " + NatToString(ow);
    var u := W + "x" + middle + "x" + OH;
    assert forall i :: 0 <= i < |W| ==> W[i] != "x"[0];
    assert forall i :: 0 <= i < |middle| ==> middle[i] != "x"[0];
    assert forall i :: 0 <= i < |OH| ==> OH[i] != "x"[0];
    assert !IsSpace(u[0]) by {
      assert u[0] == W[0];
    }
    assert !IsSpace(u[|u| - 1]) by {
      LastOfConcat(W + "x" + middle + "x", OH);
    }
    StripPadded(' ', u);
    SplitAround3(W, "x", middle, OH);
    assert SizeText(w, h) == W + "x" + NatToString(h);
    assert SizeText(ow, oh) == NatToString(ow) + "x" + OH;
    Regroup(" ", W, "x", NatToString(h), "\n", OverrideMarker, " ", NatToString(ow), OH);
    assert " " == [' '];
    ParseSizePartOfThreePieces([' '] + u);
  }

  /** Concatenation regrouped around the two separators. */
  lemma Regroup(p: string, a: string, x: string, b: string, n: string, o: string, q: string, c: string, d: string)
    ensures p + (a + x + b) + n + o + q + (c + x + d) == p + (a + x + (b + n + o + q + c) + x + d)
  {
  }

  /** adb prints "Physical size: WxH" followed by "Override size: WxH" when
      an override is active. Everything after the first marker is then
      split on 'x', which gives three pieces instead of two, so no size is
      reported at all. */
  lemma PhysicalThenOverrideGivesNothing(w: nat, h: nat, ow: nat, oh: nat)
    ensures ParseWmSize(PhysicalMarker + " " + SizeText(w, h) + "\n" + OverrideMarker + " " + SizeText(ow, oh)) == None
  {
    var rest := " " + SizeText(w, h) + "\n" + OverrideMarker + " " + SizeText(ow, oh);
    var s := PhysicalMarker + " " + SizeText(w, h) + "\n" + OverrideMarker + " " + SizeText(ow, oh);
    LastOfConcat(" " + SizeText(w, h) + "\n" + OverrideMarker + " ", SizeText(ow, oh));
    assert s == [] + PhysicalMarker + rest;
    PhysicalAfterPlainPrefix([], rest);
    SizeThenOverrideIsNoSize(w, h, ow, oh);
  }

  /** `get_adb_screen_resolution`: list devices, give up without one, then
      parse `wm size`. */
  function AdbScreenResolution(devices: Command, wmSize: Command): (r: Option<Size>)
    ensures r.Some? ==> devices.Succeeded() && DeviceId(devices.stdout).Some?
    ensures r.Some? ==> wmSize.Succeeded() && ParseWmSize(wmSize.stdout) == r
    ensures devices.Succeeded() && ConnectedDevices(devices.stdout) != [] && wmSize.Succeeded() ==>
      r == ParseWmSize(wmSize.stdout)
  {
    if !devices.Succeeded() || ConnectedDevices(devices.stdout) == [] then None
    else if !wmSize.Succeeded() then None
    else ParseWmSize(wmSize.stdout)
  }

  // ---------------------------------------------------------------------
  // `dumpsys display`

  /** Which entry of the display info a `dumpsys display` line fills. */
  datatype LineClass = RealSize | AppSize | DpiInfo | Unrecognised

  /** The line mentions a size: a raw 'x' or '×'; case matters here. */
  predicate HasSizeMark(line: string) {
    Contains(line, "x") || Contains(line, "×")
  }

  /** Keywords are looked up in the lower-cased line, in the order
      "real", "app", "dpi"; the first two also need a size mark. */
  function ClassifyLine(line: string): (c: LineClass)
    ensures c == RealSize <==> HasSizeMark(line) && Contains(Lower(line), "real")
    ensures c == AppSize <==>
      HasSizeMark(line) && !Contains(Lower(line), "real") && Contains(Lower(line), "app")
    ensures c == DpiInfo <==>
      && Contains(Lower(line), "dpi")
      && !(HasSizeMark(line) && (Contains(Lower(line), "real") || Contains(Lower(line), "app")))
    ensures c == Unrecognised <==>
      && !Contains(Lower(line), "dpi")
      && !(HasSizeMark(line) && (Contains(Lower(line), "real") || Contains(Lower(line), "app")))
  {
    var low := Lower(line);
    if Contains(low, "real") && HasSizeMark(line) then RealSize
    else if Contains(low, "app") && HasSizeMark(line) then AppSize
    else if Contains(low, "dpi") then DpiInfo
    else Unrecognised
  }

  /** The tests are tried in the order real, app, dpi: a size line naming
      "real" is a real-size line even if it also names "app" or "dpi", and
      a size line naming "app" but not "real" is an app-size line even if
      it names "dpi"; a line naming "dpi" is a dpi line when it has no size
      mark or names neither "real" nor "app", so a "1080 x 2400 ... dpi"
      line falls through to the dpi entry. */
  lemma ClassPrecedence(line: string)
    ensures HasSizeMark(line) && Contains(Lower(line), "real") ==> ClassifyLine(line) == RealSize
    ensures HasSizeMark(line) && Contains(Lower(line), "app") && !Contains(Lower(line), "real") ==>
      ClassifyLine(line) == AppSize
    ensures Contains(Lower(line), "dpi") && !Contains(Lower(line), "real") && !Contains(Lower(line), "app") ==>
      ClassifyLine(line) == DpiInfo
    ensures Contains(Lower(line), "dpi") && !HasSizeMark(line) ==> ClassifyLine(line) == DpiInfo
  {
  }

  /** An occurrence survives lower-casing both strings. */
  lemma LowerKeepsOccurrence(s: string, pat: string, i: nat)
    requires OccursAt(s, pat, i)
    ensures OccursAt(Lower(s), Lower(pat), i)
  {
    assert Lower(s)[i..i + |pat|] == Lower(pat) by {
      forall k | 0 <= k < |pat| ensures Lower(s)[i..i + |pat|][k] == Lower(pat)[k] {
        assert s[i..i + |pat|][k] == pat[k];
      }
    }
  }

  /** Keywords match whatever their case: a line with "REAL" and a raw 'x'
      is a real-size line. */
  lemma KeywordsIgnoreCase(line: string)
    requires Contains(line, "REAL") && Contains(line, "x")
    ensures ClassifyLine(line) == RealSize
  {
    var i := IndexOf(line, "REAL").value;
    LowerKeepsOccurrence(line, "REAL", i);
    assert Lower("REAL") == "real";
    assert OccursAt(Lower(line), "real", i);
  }

  /** The size mark does not ignore case: a line without a lower-case 'x'
      or a '×' is never a size line, whatever keywords it holds. */
  lemma SizeMarkIsCaseSensitive(line: string)
    requires forall i :: 0 <= i < |line| ==> line[i] != 'x' && line[i] != '×'
    ensures ClassifyLine(line) == DpiInfo || ClassifyLine(line) == Unrecognised
  {
    assert forall i :: 0 <= i < |line| ==> line[i] != "x"[0];
    NotContainsFirstChar(line, "x");
    assert forall i :: 0 <= i < |line| ==> line[i] != "×"[0];
    NotContainsFirstChar(line, "×");
  }

  /** The dictionary `get_adb_display_info` fills; a missing key is `None`. */
  datatype DisplayInfo = DisplayInfo(
    density: Option<string>,
    realSize: Option<string>,
    appSize: Option<string>,
    dpiInfo: Option<string>,
    deviceModel: Option<string>)
  {
    /** The entry a line class fills. */
    function Entry(c: LineClass): Option<string>
      requires c != Unrecognised
    {
      match c
      case RealSize => realSize
      case AppSize => appSize
      case DpiInfo => dpiInfo
    }

    /** `value` stored under the entry of class `c`; nothing else changes. */
    function Store(c: LineClass, value: string): (r: DisplayInfo)
      ensures r.density == density && r.deviceModel == deviceModel
      ensures c != Unrecognised ==> r.Entry(c) == Some(value)
      ensures forall d :: d != Unrecognised && d != c ==> r.Entry(d) == Entry(d)
    {
      match c
      case RealSize => this.(realSize := Some(value))
      case AppSize => this.(appSize := Some(value))
      case DpiInfo => this.(dpiInfo := Some(value))
      case Unrecognised => this
    }
  }

  const NoInfo := DisplayInfo(None, None, None, None, None)

  /** Each value stored under the entry of its class, in order. */
  function StoreAll(info: DisplayInfo, classes: seq<LineClass>, values: seq<string>): (r: DisplayInfo)
    requires |classes| == |values|
    ensures r.density == info.density && r.deviceModel == info.deviceModel
  {
    if classes == [] then info
    else
      var n := |classes| - 1;
      StoreAll(info, classes[..n], values[..n]).Store(classes[n], values[n])
  }

  /** The entry of a class holds the value of its last occurrence. */
  lemma {:induction false} LastStoreWins(info: DisplayInfo, classes: seq<LineClass>, values: seq<string>, c: LineClass, k: nat)
    requires |classes| == |values| && c != Unrecognised
    requires k < |classes| && classes[k] == c
    requires forall j :: k < j < |classes| ==> classes[j] != c
    ensures StoreAll(info, classes, values).Entry(c) == Some(values[k])
    decreases |classes|
  {
    var n := |classes| - 1;
    if k < n {
      LastStoreWins(info, classes[..n], values[..n], c, k);
    }
  }

  /** A class that never occurs keeps its entry. */
  lemma {:induction false} AbsentClassKept(info: DisplayInfo, classes: seq<LineClass>, values: seq<string>, c: LineClass)
    requires |classes| == |values| && c != Unrecognised
    requires forall j :: 0 <= j < |classes| ==> classes[j] != c
    ensures StoreAll(info, classes, values).Entry(c) == info.Entry(c)
    decreases |classes|
  {
    if classes != [] {
      var n := |classes| - 1;
      AbsentClassKept(info, classes[..n], values[..n], c);
    }
  }

  /** The class of each line, in order. */
  function Classes(lines: seq<string>): (cs: seq<LineClass>)
    ensures |cs| == |lines|
  {
    seq(|lines|, i requires 0 <= i < |lines| => ClassifyLine(lines[i]))
  }

  /** Each line stripped, in order. */
  function Stripped(lines: seq<string>): (vs: seq<string>)
    ensures |vs| == |lines|
  {
    seq(|lines|, i requires 0 <= i < |lines| => Strip(lines[i]))
  }

  /** The `for line in lines` loop: each line's stripped text stored under
      the entry of its class, one line after the other. */
  function ClassifyLines(info: DisplayInfo, lines: seq<string>): (r: DisplayInfo)
    ensures r.density == info.density && r.deviceModel == info.deviceModel
  {
    StoreAll(info, Classes(lines), Stripped(lines))
  }

  /** The entry of a class holds the stripped text of the last line of that
      class: later matches overwrite earlier ones. */
  lemma LastMatchWins(info: DisplayInfo, lines: seq<string>, c: LineClass, k: nat)
    requires c != Unrecognised
    requires k < |lines| && ClassifyLine(lines[k]) == c
    requires forall j :: k < j < |lines| ==> ClassifyLine(lines[j]) != c
    ensures ClassifyLines(info, lines).Entry(c) == Some(Strip(lines[k]))
  {
    LastStoreWins(info, Classes(lines), Stripped(lines), c, k);
  }

  /** A class no line belongs to keeps its entry as it was. */
  lemma NoMatchKeepsEntry(info: DisplayInfo, lines: seq<string>, c: LineClass)
    requires c != Unrecognised
    requires forall j :: 0 <= j < |lines| ==> ClassifyLine(lines[j]) != c
    ensures ClassifyLines(info, lines).Entry(c) == info.Entry(c)
  {
    AbsentClassKept(info, Classes(lines), Stripped(lines), c);
  }

  /** `get_adb_display_info`: density, then the classified `dumpsys display`
      lines, then the model. A command that fails leaves its entries out; one
      that raises also skips every later step. */
  function AdbDisplayInfo(density: Command, dumpsys: Command, model: Command): (r: DisplayInfo)
    ensures r.density.Some? <==> density.Succeeded()
    ensures density.Succeeded() ==> r.density == Some(Strip(density.stdout))
    ensures r.deviceModel.Some? <==> !density.Raised? && !dumpsys.Raised? && model.Succeeded()
    ensures r.deviceModel.Some? ==> r.deviceModel == Some(Strip(model.stdout))
    ensures !dumpsys.Succeeded() || density.Raised? ==>
      r.realSize == None && r.appSize == None && r.dpiInfo == None
    ensures !density.Raised? && dumpsys.Succeeded() ==>
      var base := if density.Succeeded() then NoInfo.(density := Some(Strip(density.stdout))) else NoInfo;
      var c := ClassifyLines(base, Split(dumpsys.stdout, "\n"));
      r.realSize == c.realSize && r.appSize == c.appSize && r.dpiInfo == c.dpiInfo
  {
    match density
    case Raised => NoInfo
    case Completed(_, _) =>
      var withDensity := if density.Succeeded() then NoInfo.(density := Some(Strip(density.stdout))) else NoInfo;
      match dumpsys
      case Raised => withDensity
      case Completed(_, out) =>
        var withDisplay := if dumpsys.Succeeded() then ClassifyLines(withDensity, Split(out, "\n")) else withDensity;
        if model.Succeeded() then withDisplay.(deviceModel := Some(Strip(model.stdout))) else withDisplay
  }

  // ---------------------------------------------------------------------
  // The comparison in `main`

  /** The possible-cause lines `main` prints when the sizes differ. */
  datatype Hint =
    | OrientationMismatch   // "可能存在横竖屏坐标系差异"
    | DpiScaling            // "可能存在DPI缩放差异"
    | NavigationBar         // "可能存在虚拟导航栏影响"
    | SmallDifference       // "差异较小，可能是状态栏/导航栏的影响"
    | SwapDetected          // "检测到横竖屏坐标系差异！"
  {
    /** The position of the hint's line in the printed list. */
    function Rank(): nat {
      match this
      case OrientationMismatch => 0
      case DpiScaling => 1
      case NavigationBar => 2
      case SmallDifference => 3
      case SwapDetected => 4
    }
  }

  /** The advice `main` ends with. */
  datatype Recommendation = Interchangeable | PreferAdb

  datatype Comparison = Comparison(
    widthDiff: nat,
    heightDiff: nat,
    identical: bool,
    hints: seq<Hint>,
    recommendation: Recommendation)

  /** The possible causes `main` prints for differing sizes, in the order it
      prints them, each at most once. */
  function Causes(wd: nat, hd: nat, swapped: bool): (hints: seq<Hint>)
    ensures OrientationMismatch in hints <==> wd > hd
    ensures DpiScaling in hints <==> wd > 100 || hd > 100
    ensures NavigationBar in hints <==> DpiScaling in hints
    ensures SmallDifference in hints <==> wd < 50 && hd < 50
    ensures SwapDetected in hints <==> swapped
    ensures forall i, j :: 0 <= i < j < |hints| ==> hints[i].Rank() < hints[j].Rank()
  {
    (if wd > hd then [OrientationMismatch] else [])
    + (if wd > 100 || hd > 100 then [DpiScaling, NavigationBar] else [])
    + (if wd < 50 && hd < 50 then [SmallDifference] else [])
    + (if swapped then [SwapDetected] else [])
  }

  /** Steps 5 and 6 of `main` on the adb resolution and the screenshot size. */
  function CompareDimensions(adb: Size, pil: Size): (c: Comparison)
    ensures c.widthDiff as int == adb.width - pil.width || c.widthDiff as int == pil.width - adb.width
    ensures c.heightDiff as int == adb.height - pil.height || c.heightDiff as int == pil.height - adb.height
    ensures c.identical <==> adb == pil
    ensures c.identical ==> c.hints == []
    ensures OrientationMismatch in c.hints <==> adb != pil && c.widthDiff > c.heightDiff
    ensures DpiScaling in c.hints <==> adb != pil && (c.widthDiff > 100 || c.heightDiff > 100)
    ensures NavigationBar in c.hints <==> DpiScaling in c.hints
    ensures SmallDifference in c.hints <==> adb != pil && c.widthDiff < 50 && c.heightDiff < 50
    ensures SwapDetected in c.hints <==> adb != pil && adb.width == pil.height && adb.height == pil.width
    ensures c.recommendation == Interchangeable <==> adb == pil
    ensures forall i, j :: 0 <= i < j < |c.hints| ==> c.hints[i].Rank() < c.hints[j].Rank()
  {
    var wd := Geometry.Abs(adb.width - pil.width);
    var hd := Geometry.Abs(adb.height - pil.height);
    var identical := wd == 0 && hd == 0;
    var hints := if identical then [] else Causes(wd, hd, adb.width == pil.height && adb.height == pil.width);
    Comparison(wd, hd, identical, hints, if identical then Interchangeable else PreferAdb)
  }

  /** Swapping the two measurements changes nothing: every rule is symmetric. */
  lemma CompareSymmetric(adb: Size, pil: Size)
    ensures CompareDimensions(adb, pil) == CompareDimensions(pil, adb)
  {
  }

  /** The DPI hint (some difference above 100) and the small-difference hint
      (both below 50) never appear together. */
  lemma DpiAndSmallExclusive(adb: Size, pil: Size)
    ensures var c := CompareDimensions(adb, pil);
      !(DpiScaling in c.hints && SmallDifference in c.hints)
  {
  }

  /** A swapped pair differs by the same amount on both axes, so the
      orientation hint never accompanies the swap hint, and a swap is never
      reported for a square that equals itself. */
  lemma SwapExcludesOrientation(adb: Size, pil: Size)
    ensures var c := CompareDimensions(adb, pil);
      SwapDetected in c.hints ==> c.widthDiff == c.heightDiff && OrientationMismatch !in c.hints
    ensures CompareDimensions(adb, adb).hints == []
  {
  }

  /** Where `main` stops, or the comparison it reaches. */
  datatype Experiment = NoAdbResolution | NoScreenshot | NoPilDimensions | Compared(comparison: Comparison)

  /** `main`: each of the adb resolution, the screenshot and the PIL size
      must be obtained before the comparison runs. */
  function RunExperiment(adb: Option<Size>, screenshotTaken: bool, pil: Option<Size>): (e: Experiment)
    ensures e.Compared? <==> adb.Some? && screenshotTaken && pil.Some?
    ensures e.Compared? ==> e.comparison == CompareDimensions(adb.value, pil.value)
    ensures e == NoAdbResolution <==> adb.None?
    ensures e == NoScreenshot <==> adb.Some? && !screenshotTaken
    ensures e == NoPilDimensions <==> adb.Some? && screenshotTaken && pil.None?
  {
    if adb.None? then NoAdbResolution
    else if !screenshotTaken then NoScreenshot
    else if pil.None? then NoPilDimensions
    else Compared(CompareDimensions(adb.value, pil.value))
  }
}

=== FILE: text.dfy ===
/** The Python string built-ins the parsers rely on, over `seq<char>`:
    `strip`, `in`, `split(sep)`, `split()`, `lower`, `int(...)` and `str(n)`. */
module Text {
  import opened Wrappers

  /** The characters for which Python's `str.isspace()` holds; `strip()`,
      `split()` and `int()` all skip exactly these. */
  predicate IsSpace(c: char) {
    || c == ' '
    || ('\t' <= c <= '\r')
    || ('\U{1C}' <= c <= '\U{1F}')
    || c == '\U{85}'
    || c == '\U{A0}'
    || c == '\U{1680}'
    || ('\U{2000}' <= c <= '\U{200A}')
    || c == '\U{2028}'
    || c == '\U{2029}'
    || c == '\U{202F}'
    || c == '\U{205F}'
    || c == '\U{3000}'
  }

  /** The index of the first non-whitespace character of `s` at or after
      `i`, or `|s|` when there is none. */
  function SkipSpace(s: string, i: nat): (j: nat)
    requires i <= |s|
    ensures i <= j <= |s|
    ensures j == |s| || !IsSpace(s[j])
    ensures forall k :: i <= k < j ==> IsSpace(s[k])
    decreases |s| - i
  {
    if i < |s| && IsSpace(s[i]) then SkipSpace(s, i + 1) else i
  }

  /** Scanning back from `j` to no further than `lo`: one past the last
      non-whitespace character, or `lo` when there is none. */
  function SkipSpaceBack(s: string, lo: nat, j: nat): (e: nat)
    requires lo <= j <= |s|
    ensures lo <= e <= j
    ensures e == lo || !IsSpace(s[e - 1])
    ensures forall k :: e <= k < j ==> IsSpace(s[k])
    decreases j
  {
    if lo < j && IsSpace(s[j - 1]) then SkipSpaceBack(s, lo, j - 1) else j
  }

  /** `s.lstrip()`. */
  function TrimStart(s: string): (r: string)
    ensures |r| <= |s|
    ensures r == [] || !IsSpace(r[0])
  {
    s[SkipSpace(s, 0)..]
  }

  /** `s.strip()`: `s` without its leading and trailing whitespace. */
  function Strip(s: string): (r: string)
    ensures |r| <= |s|
    ensures r == [] || (!IsSpace(r[0]) && !IsSpace(r[|r| - 1]))
    ensures r == [] <==> forall k :: 0 <= k < |s| ==> IsSpace(s[k])
  {
    var a := SkipSpace(s, 0);
    s[a..SkipSpaceBack(s, a, |s|)]
  }

  /** `strip()` removes exactly the outer whitespace: the result is a slice
      of `s` with only whitespace before and after it. Together with the
      contract of `Strip`, this fixes the result. */
  lemma StripKeepsInnerSlice(s: string)
    ensures exists a, b ::
      && 0 <= a <= b <= |s| && Strip(s) == s[a..b]
      && (forall k :: 0 <= k < a ==> IsSpace(s[k]))
      && (forall k :: b <= k < |s| ==> IsSpace(s[k]))
  {
    var a := SkipSpace(s, 0);
    var b := SkipSpaceBack(s, a, |s|);
    assert Strip(s) == s[a..b];
  }

  /** A string that neither starts nor ends with whitespace is its own strip. */
  lemma StripUnchanged(s: string)
    requires s == [] || (!IsSpace(s[0]) && !IsSpace(s[|s| - 1]))
    ensures Strip(s) == s
  {
    assert s[0..|s|] == s;
  }

  /** One leading whitespace character before a string that is its own
      strip does not survive the strip. */
  lemma StripPadded(c: char, s: string)
    requires IsSpace(c)
    requires s == [] || (!IsSpace(s[0]) && !IsSpace(s[|s| - 1]))
    ensures Strip([c] + s) == s
  {
    var t := [c] + s;
    assert SkipSpace(t, 0) == 1;
    assert t[1..|t|] == s;
  }

  /** `pat` occurs in `s` starting at index `i`. */
  predicate OccursAt(s: string, pat: string, i: nat) {
    i + |pat| <= |s| && s[i..i + |pat|] == pat
  }

  /** The first occurrence of `pat` in `s` at or after `from`. */
  function IndexFrom(s: string, pat: string, from: nat): (r: Option<nat>)
    requires from <= |s|
    ensures r.Some? ==> from <= r.value && OccursAt(s, pat, r.value)
    ensures r.Some? ==> forall j :: from <= j < r.value ==> !OccursAt(s, pat, j)
    ensures r.None? ==> forall j :: from <= j <= |s| ==> !OccursAt(s, pat, j)
    decreases |s| - from
  {
    if OccursAt(s, pat, from) then Some(from)
    else if from == |s| then None
    else IndexFrom(s, pat, from + 1)
  }

  /** `s.find(pat)`, as an option. */
  function IndexOf(s: string, pat: string): (r: Option<nat>)
    ensures r.Some? ==> OccursAt(s, pat, r.value)
    ensures r.Some? ==> forall j :: 0 <= j < r.value ==> !OccursAt(s, pat, j)
    ensures r.None? ==> forall j :: 0 <= j <= |s| ==> !OccursAt(s, pat, j)
  {
    IndexFrom(s, pat, 0)
  }

  /** Python's `pat in s` on strings. */
  predicate Contains(s: string, pat: string) {
    IndexOf(s, pat).Some?
  }

  /** A string lacking the first character of `pat` cannot contain `pat`. */
  lemma NotContainsFirstChar(s: string, pat: string)
    requires |pat| > 0
    requires forall i :: 0 <= i < |s| ==> s[i] != pat[0]
    ensures !Contains(s, pat)
  {
    forall j | 0 <= j <= |s| ensures !OccursAt(s, pat, j) {
      if j + |pat| <= |s| {
        assert s[j..j + |pat|][0] == s[j];
      }
    }
  }

  /** `sep.join(parts)`. */
  function Join(sep: string, parts: seq<string>): string
    decreases |parts|
  {
    if |parts| == 0 then []
    else if |parts| == 1 then parts[0]
    else parts[0] + sep + Join(sep, parts[1..])
  }

  /** `s.split(sep)` for a non-empty separator: the pieces between
      non-overlapping occurrences found left to right. */
  function Split(s: string, sep: string): (parts: seq<string>)
    requires |sep| > 0
    ensures |parts| >= 1
    ensures Join(sep, parts) == s
    ensures forall k :: 0 <= k < |parts| ==> !Contains(parts[k], sep)
    ensures !Contains(s, sep) <==> parts == [s]
    ensures Contains(s, sep) ==> |parts| >= 2 && parts[0] == s[..IndexOf(s, sep).value]
    decreases |s|
  {
    match IndexOf(s, sep)
    case None => [s]
    case Some(i) =>
      var rest := Split(s[i + |sep|..], sep);
      assert s == s[..i] + sep + s[i + |sep|..] by {
        assert s[i..i + |sep|] == sep;
      }
      assert !Contains(s[..i], sep) by {
        PrefixHasNoEarlierOccurrence(s, sep, i);
      }
      [s[..i]] + rest
  }

  /** Occurrences inside the prefix `s[..i]` are occurrences in `s` before `i`. */
  lemma PrefixHasNoEarlierOccurrence(s: string, pat: string, i: nat)
    requires |pat| > 0 && i <= |s|
    requires forall j :: 0 <= j < i ==> !OccursAt(s, pat, j)
    ensures !Contains(s[..i], pat)
  {
    if IndexOf(s[..i], pat).Some? {
      var j := IndexOf(s[..i], pat).value;
      assert s[..i][j..j + |pat|] == s[j..j + |pat|];
      assert OccursAt(s, pat, j);
    }
  }

  /** A string none of whose characters starts `pat` cannot contain `pat`,
      and splitting it on `pat` leaves it whole. */
  lemma SplitWithoutSeparator(s: string, sep: string)
    requires |sep| > 0
    requires forall i :: 0 <= i < |s| ==> s[i] != sep[0]
    ensures Split(s, sep) == [s]
  {
    NotContainsFirstChar(s, sep);
  }

  /** When `a` holds no character that starts `sep`, the first occurrence of
      `sep` in `a + sep + b` is the one right after `a`, and the split
      begins with `a`. */
  lemma SplitAfterPrefix(a: string, sep: string, b: string)
    requires |sep| > 0
    requires forall i :: 0 <= i < |a| ==> a[i] != sep[0]
    ensures IndexOf(a + sep + b, sep) == Some(|a|)
    ensures Split(a + sep + b, sep) == [a] + Split(b, sep)
  {
    var s := a + sep + b;
    assert s[|a|..|a| + |sep|] == sep;
    assert OccursAt(s, sep, |a|);
    forall j | 0 <= j < |a| ensures !OccursAt(s, sep, j) {
      if j + |sep| <= |s| {
        assert s[j..j + |sep|][0] == a[j];
      }
    }
    assert s[..|a|] == a;
    assert s[|a| + |sep|..] == b;
  }

  /** When the first occurrence of `sep` in `pre + sep + tail` is the one
      right after `pre`, the split is `pre` followed by the split of `tail`. */
  lemma SplitAtFirst(pre: string, sep: string, tail: string)
    requires |sep| > 0
    requires IndexOf(pre + sep + tail, sep) == Some(|pre|)
    ensures Split(pre + sep + tail, sep) == [pre] + Split(tail, sep)
  {
    var s := pre + sep + tail;
    assert s[..|pre|] == pre;
    assert s[|pre| + |sep|..] == tail;
  }

  /** With `sep` occurring only between them, `a + sep + b` splits into `a` and `b`. */
  lemma SplitAround(a: string, sep: string, b: string)
    requires |sep| > 0
    requires forall i :: 0 <= i < |a| ==> a[i] != sep[0]
    requires forall i :: 0 <= i < |b| ==> b[i] != sep[0]
    ensures Split(a + sep + b, sep) == [a, b]
  {
    SplitWithoutSeparator(b, sep);
    SplitAfterPrefix(a, sep, b);
  }

  /** With `sep` occurring only between them, `a + sep + b + sep + c` splits into three. */
  lemma SplitAround3(a: string, sep: string, b: string, c: string)
    requires |sep| > 0
    requires forall i :: 0 <= i < |a| ==> a[i] != sep[0]
    requires forall i :: 0 <= i < |b| ==> b[i] != sep[0]
    requires forall i :: 0 <= i < |c| ==> c[i] != sep[0]
    ensures Split(a + sep + b + sep + c, sep) == [a, b, c]
  {
    SplitAround(b, sep, c);
    SplitAfterPrefix(a, sep, b + sep + c);
    Regroup5(a, sep, b, sep, c);
  }

  /** Concatenation regrouped to the right. */
  lemma Regroup5(a: string, b: string, c: string, d: string, e: string)
    ensures a + b + c + d + e == a + b + (c + d + e)
  {
  }

  /** The last character of a concatenation is the last of its right part. */
  lemma LastOfConcat(a: string, b: string)
    requires b != []
    ensures (a + b)[|a + b| - 1] == b[|b| - 1]
  {
  }


  /** The first whitespace-separated token of `s`, as `s.split()[0]`;
      `None` where Python would raise `IndexError`. */
  function FirstToken(s: string): (r: Option<string>)
    ensures r.None? <==> Strip(s) == []
    ensures r.Some? ==> IsFirstToken(s, r.value)
  {
    var t := TrimStart(s);
    if t == [] then None else Some(TakeToken(t))
  }

  /** `tok` is the first maximal non-empty run of non-whitespace in `s`. */
  predicate IsFirstToken(s: string, tok: string) {
    var t := TrimStart(s);
    && 0 < |tok| <= |t|
    && tok == t[..|tok|]
    && (forall i :: 0 <= i < |tok| ==> !IsSpace(tok[i]))
    && (|tok| == |t| || IsSpace(t[|tok|]))
  }

  /** The longest prefix of `s` without whitespace. */
  function TakeToken(s: string): (r: string)
    ensures |r| <= |s| && r == s[..|r|]
    ensures forall i :: 0 <= i < |r| ==> !IsSpace(r[i])
    ensures |r| == |s| || IsSpace(s[|r|])
  {
    if s == [] || IsSpace(s[0]) then [] else [s[0]] + TakeToken(s[1..])
  }

  /** Python's `s.lower()` on ASCII letters; every other character is kept. */
  function Lower(s: string): (r: string)
    ensures |r| == |s|
    ensures forall i :: 0 <= i < |s| ==> r[i] == LowerChar(s[i])
  {
    seq(|s|, i requires 0 <= i < |s| => LowerChar(s[i]))
  }

  function LowerChar(c: char): char {
    if 'A' <= c <= 'Z' then (c as int + 32) as char else c
  }

  predicate IsDigit(c: char) { '0' <= c <= '9' }

  predicate AllDigits(s: string) {
    forall i :: 0 <= i < |s| ==> IsDigit(s[i])
  }

  function DigitChar(d: nat): (c: char)
    requires d < 10
    ensures IsDigit(c) && c as int - '0' as int == d
  {
    ('0' as int + d) as char
  }

  /** The value of a run of decimal digits, most significant first. */
  function DigitsValue(s: string): nat
    requires AllDigits(s)
  {
    if s == [] then 0
    else DigitsValue(s[..|s| - 1]) * 10 + (s[|s| - 1] as int - '0' as int)
  }

  /** `str(n)` for a non-negative `n`: its canonical decimal digits. */
  function NatToString(n: nat): (s: string)
    ensures |s| >= 1 && AllDigits(s)
    ensures DigitsValue(s) == n
    ensures s[0] == '0' ==> n == 0
    decreases n
  {
    if n < 10 then [DigitChar(n)]
    else
      var prefix := NatToString(n / 10);
      var s := prefix + [DigitChar(n % 10)];
      assert s[..|s| - 1] == prefix;
      s
  }

  predicate IsSign(c: char) { c == '+' || c == '-' }

  /** An integer literal: a digit or a sign, then digits only, and at least
      one digit in all. */
  predicate IsIntLiteral(t: string) {
    && |t| >= 1
    && (IsDigit(t[0]) || (IsSign(t[0]) && |t| >= 2))
    && forall i :: 1 <= i < |t| ==> IsDigit(t[i])
  }

  /** The value an integer literal spells: its digits read in base ten,
      negated after a '-' and unchanged after a '+'. */
  function LiteralValue(t: string): int
    requires IsIntLiteral(t)
  {
    if t[0] == '-' then -(DigitsValue(t[1..]) as int)
    else if t[0] == '+' then DigitsValue(t[1..]) as int
    else DigitsValue(t) as int
  }

  /** Python's `int(s)` on a string: surrounding whitespace, an optional sign
      and at least one ASCII digit; `None` where Python raises `ValueError`. */
  function ParseInt(s: string): (r: Option<int>)
    ensures r.Some? <==> IsIntLiteral(Strip(s))
    ensures r.Some? && IsDigit(Strip(s)[0]) ==> r.value >= 0
    ensures r.Some? && Strip(s)[0] == '-' ==> r.value <= 0
    ensures r.Some? ==> r.value == LiteralValue(Strip(s))
  {
    var t := Strip(s);
    if t == [] then None
    else if t[0] == '+' || t[0] == '-' then
      var body := t[1..];
      if body != [] && AllDigits(body) then
        Some(if t[0] == '-' then -(DigitsValue(body) as int) else DigitsValue(body))
      else None
    else if AllDigits(t) then Some(DigitsValue(t))
    else None
  }

  /** `int(str(n)) == n`. */
  lemma ParseIntOfDecimal(n: nat)
    ensures ParseInt(NatToString(n)) == Some(n)
  {
    var s := NatToString(n);
    assert IsDigit(s[0]) && IsDigit(s[|s| - 1]);
    StripUnchanged(s);
    assert s[0] != '+' && s[0] != '-';
  }
}

=== FILE: wrappers.dfy ===
/** Optional values: the `None` that the Python code returns from a failed parse. */
module Wrappers {

  datatype Option<+T> = None | Some(value: T)

  /** The zero- or one-element sequence holding the option's value. */
  function ToSeq<T>(o: Option<T>): (s: seq<T>)
    ensures |s| <= 1
    ensures o.Some? <==> |s| == 1
    ensures o.Some? ==> s[0] == o.value
  {
    match o
    case Some(v) => [v]
    case None => []
  }
}
